=== FILE: README.md ===
# pydexbot trade-receipt parser and account permissions, in Dafny

This project models two pieces of the pydexbot market-making bot for the
FLON chain:

- `parse_price_from_result` (`pydexbot/bot_service.py`). It takes the JSON
  receipt that the chain returns for a pushed `exectrade` transaction. It
  looks for the `transfer` in which the swap contract `flon.swap` pays the bot
  the swap result. From that transfer it reports:
  - the token contract;
  - the receiving bot user;
  - the input quantity;
  - the prices output/input and input/output, each guarded against a
    non-positive divisor.

  The model also covers the one pass of the service loop that consumes the
  result (`pydexbot/bot_service.py:103-119`). That pass prints a table, or
  reports that no trade happened, or logs an exception and retries after 3
  seconds.
- The authority records that `create_account` builds (`pydexbot/utils.py`).
  The nested `build_permission` grants a permission to a single public key
  when its argument is a string longer than 12 characters. Otherwise it
  grants the permission to the argument's `active` permission. The active
  key defaults to the owner key.

The receipt is a Python value, modelled as `PyValues.Value`. A dict is an
association list in insertion order, so iterating over a dict gives its keys
in order. A decoded dict holds each key once; on such a list the lookup finds
the key's one entry. Each Python operation the parser applies is modelled together with
the exception it raises on the wrong kind of value:

- `in`, `[key]`, `[0]`, `.get` and `for`;
- truthiness and `.startswith`;
- `str.split(sep)`, `str.split()` and `str.strip()`;
- `float()`.

A parse therefore ends in exactly one of three ways: `Empty`,
`Found(TradeInfo)`, or `Error(kind)` for an exception that escapes to the
loop. Prices are exact reals.

Modules:

- `Wrappers`: `Option`.
- `PyValues`: values, exceptions, and the container operations.
- `PyStrings`: substring search, `split`, whitespace, and `strip`.
- `PyFloat`: `float()` on a token, and decimal numerals.
- `BotService`: the parser and one step of the service loop.
- `MemoProofs`: reading a quantity and an amount back from a swap memo.
- `BotServiceProofs`: which traces the parser looks at, what a result
  guarantees, and receipts built the way the swap contract writes them.
- `Utils`: `build_permission` and the `active_key` default.

## Model

| member | source | states |
|---|---|---|
| `PyValues.Contains` | pydexbot/bot_service.py:49-51 | `key in v`: on a dict, whether the key is present; on a list, membership; on a string, substring occurrence; `TypeError` for `None`, booleans and numbers |
| `PyValues.GetItem` | pydexbot/bot_service.py:53 | `v[key]` succeeds exactly when `v` is a dict holding the key, and gives that entry; otherwise `KeyError` on a dict and `TypeError` on anything else |
| `PyValues.GetFirst` | pydexbot/bot_service.py:58 | `v[0]` succeeds exactly on a non-empty list or string; a dict raises `KeyError` |
| `PyValues.GetOr` | pydexbot/bot_service.py:58 | `.get(key, default)` exists only on a dict (otherwise `AttributeError`); it gives the entry when present and the default when not |
| `PyValues.LookupDistinct` | pydexbot/bot_service.py:49-53 | in a dict, whose keys are distinct, looking a key up gives the value of that key's entry |
| `PyValues.Iterate` | pydexbot/bot_service.py:54 | a `for` loop over a list visits exactly its items; over a string, its one-character strings in order; over a dict, its keys in order; any other value raises `TypeError` |
| `PyValues.Truthy` | pydexbot/bot_service.py:56 | a value is false exactly when it is `None`, `False`, zero, or an empty string, list or dict |
| `PyValues.StartsWith` | pydexbot/bot_service.py:64 | `.startswith(prefix)` is defined only on strings, and is true exactly when `prefix` is a prefix |
| `PyStrings.Find` | pydexbot/bot_service.py:70 | the position found is an occurrence with no occurrence before it; no position means no occurrence anywhere |
| `PyStrings.SplitHasSecondPiece` | pydexbot/bot_service.py:70 | `s.split(sep)` has a second piece exactly when `sep` occurs in `s` |
| `PyStrings.Split` | pydexbot/bot_service.py:70-71 | `s.split(sep)` gives at least one piece; the pieces joined back with `sep` give `s`, no piece contains `sep`, and every cut is at the leftmost occurrence of `sep` in the text still to split |
| `PyStrings.SplitUnique` | pydexbot/bot_service.py:70-71 | those three properties determine `s.split(sep)` exactly, even for a separator that overlaps itself |
| `PyStrings.TrimStart` | pydexbot/bot_service.py:70 | `lstrip` removes a prefix of whitespace only and leaves a result starting with a non-space; the result is empty exactly when the input is all whitespace |
| `PyStrings.TrimEnd` | pydexbot/bot_service.py:70 | `rstrip` removes a suffix of whitespace only and leaves a result ending with a non-space |
| `PyStrings.Strip` | pydexbot/bot_service.py:70-71 | `strip` leaves neither leading nor trailing whitespace, is empty exactly for all-whitespace input, and leaves an already stripped string unchanged |
| `PyStrings.StripIsSlice` | pydexbot/bot_service.py:70-71 | the result of `strip` is a slice of its input with only whitespace before and after it |
| `PyStrings.SplitWhitespace` | pydexbot/bot_service.py:72-73 | `split()` yields non-empty tokens free of whitespace, none at all exactly for an all-whitespace string, and as first token the leading run of non-whitespace after the leading whitespace |
| `PyStrings.FirstTokenBeforeSpace` | pydexbot/bot_service.py:72 | the first token of a token followed by whitespace is that token |
| `PyStrings.SplitHeadBeforeSeparator` | pydexbot/bot_service.py:71 | cutting `y + ":" + z` at its first colon gives `y` when `y` holds no colon |
| `PyFloat.ParseFloat` | pydexbot/bot_service.py:72-73 | `float(token)` raises only `ValueError`; a digit string, possibly negated, denotes its decimal value |
| `PyFloat.NoDigitNoNumber` | pydexbot/bot_service.py:72-73 | a whitespace-free ASCII token without any decimal digit that does not spell infinity or NaN makes `float` raise `ValueError` |
| `PyFloat.DecimalRoundTrip` | pydexbot/bot_service.py:72-73 | `float(str(whole) + "." + frac)` reads back the numeral's value |
| `PyFloat.DecimalOfWhole` | pydexbot/bot_service.py:72-73 | that value is `whole + frac / 10^len(frac)` |
| `BotService.Ratio` | pydexbot/bot_service.py:74-75 | a guarded quotient: times a positive divisor it gives the dividend back, and it is 0 for a divisor that is not positive, so it never divides by zero |
| `BotService.AsStr` | pydexbot/bot_service.py:68-73 | a string method on a non-string raises `AttributeError` |
| `BotService.OutputQuantity` | pydexbot/bot_service.py:68-71 | the output-quantity step raises exactly when the memo holds no `by`, and then raises `IndexError` |
| `BotService.Amount` | pydexbot/bot_service.py:72-73 | `float(text.split()[0])` raises `IndexError` exactly for blank text; otherwise any error is `ValueError` |
| `BotService.MemoAmount` | pydexbot/bot_service.py:70-72 | a memo without `by` raises `IndexError` before any number is read |
| `BotService.FirstMatch` | pydexbot/bot_service.py:54-79 | a loop whose body continues, returns or raises comes back empty-handed exactly when every element says "continue" |
| `BotService.IsTradeTrace` | pydexbot/bot_service.py:55 | the trace test is true exactly for a dict whose `act` is a dict named `exectrade`; a dict without `act` fails it; a dict whose `act` is missing or a dict never raises; it can raise only `TypeError` |
| `BotService.IsSwapPayout` | pydexbot/bot_service.py:64 | the match test is true exactly for a `transfer` action whose data is from `flon.swap` with a string memo starting with `flon swap by`; another action name fails it; it raises only `KeyError`, `TypeError` or `AttributeError` |
| `BotService.ExtractTrade` | pydexbot/bot_service.py:65-67 | the contract, user and quantity of a result are the payout's `act.account`, `data.to` and `data.quantity` |
| `BotService.InspectInline` | pydexbot/bot_service.py:60-78 | an inline entry without `act`, or whose `act` has no `data`, gives nothing; an entry that gives a result has both, passed the match test, and was extracted into that result |
| `BotService.ScanTrace` | pydexbot/bot_service.py:55-59 | only an `exectrade` trace can give a result; for one whose `inline_traces` is a list whose first entry is a dict with a missing or iterable child list, the result is the scan of those children; one with missing or empty `inline_traces` gives nothing |
| `BotService.ScanReceipt` | pydexbot/bot_service.py:47-54 | a receipt whose `processed.action_traces` can be iterated is parsed by scanning those traces in order; only such a receipt can give a result; a dict without `processed` gives nothing |
| `BotService.ToOutcome` | pydexbot/bot_service.py:47-79 | an exception escapes with its kind, a scan that finds nothing returns the empty dict, and a found payout returns the filled one |
| `BotService.ParsePriceFromResult` | pydexbot/bot_service.py:47-52 | a receipt without `processed`, or whose `processed` has no `action_traces`, gives the empty result; a result comes only from a dict with `processed` |
| `BotService.ServiceStep` | pydexbot/bot_service.py:103-119 | one loop pass fails exactly when the push raises, the interval range is empty, parsing raises, or the drawn interval is negative (`time.sleep` raises); it then sleeps 3 s, and otherwise sleeps the drawn interval within the range and reports the trade or "no trade" as parsed; it never sleeps a negative time |
| `BotService.ReportOf` | pydexbot/bot_service.py:106-113 | a receipt that parses is reported as the table of its trade exactly when a trade is found, and otherwise as "no trade" |
| `BotService.ReportIndependentOfDraw` | pydexbot/bot_service.py:105-116 | with a valid non-negative range, every admissible draw gives the same report: only the receipt decides it |
| `MemoProofs.PrefixedMemoHasQuantity` | pydexbot/bot_service.py:64-70 | a memo starting with `flon swap by` always has a piece after `by`, so the output-quantity step cannot raise on the index |
| `MemoProofs.MemoSplitsAfterPrefix` | pydexbot/bot_service.py:70 | the split of a swap memo at `by` happens at the end of its prefix |
| `MemoProofs.OutputQuantityRoundTrip` | pydexbot/bot_service.py:68-71 | from `"flon swap by " + q + ":" + rest` the output quantity reads back `q`, for any stripped `q` without `:` or `by` |
| `MemoProofs.AmountRoundTrip` | pydexbot/bot_service.py:72-73 | the amount of `"<whole>.<frac> <symbol>"` is the decimal value written |
| `MemoProofs.QuantityTextClean` | pydexbot/bot_service.py:70-71 | a quantity `"<amount> <symbol>"` whose symbol holds no blank, `:` or `by` is already stripped and holds neither separator |
| `MemoProofs.MemoQuantityRoundTrip` | pydexbot/bot_service.py:68-71 | the quantity read from a swap memo is the quantity the swap contract wrote |
| `MemoProofs.MemoAmountRoundTrip` | pydexbot/bot_service.py:68-72 | the amount read from a swap memo is the amount written, and the memo passes the prefix test |
| `MemoProofs.RatiosReciprocal` | pydexbot/bot_service.py:74-75 | with both amounts positive the two guarded prices multiply to 1, and each price is positive exactly when both amounts are |
| `BotServiceProofs.FirstMatchStop` | pydexbot/bot_service.py:78 | a scan that is not empty-handed stopped at a definite element: every earlier one said "continue" |
| `BotServiceProofs.FirstMatchAt` | pydexbot/bot_service.py:54-79 | a scan whose elements before `k` all say "continue" and whose element `k` does not stops at `k` |
| `BotServiceProofs.FirstMatchAppend` | pydexbot/bot_service.py:54-79 | scanning `a + b` is scanning `a`, and scanning `b` only when `a` gives nothing |
| `BotServiceProofs.ReceiptScansTraces` | pydexbot/bot_service.py:49-54 | a receipt with `processed.action_traces` is parsed by scanning those traces in order |
| `BotServiceProofs.TradeTraceScansChildren` | pydexbot/bot_service.py:55-59 | an `exectrade` trace is searched by scanning the children of its first inline trace |
| `BotServiceProofs.NoTracesNoTrade` | pydexbot/bot_service.py:79 | a receipt with no traces gives the empty result |
| `BotServiceProofs.LaterTracesIgnored` | pydexbot/bot_service.py:78 | once some traces give a result or raise, appending more traces changes nothing |
| `BotServiceProofs.EmptyPrefixPassedOver` | pydexbot/bot_service.py:54-57 | traces that give nothing are passed over: the result is that of the remaining traces |
| `BotServiceProofs.OtherActionSkipped` | pydexbot/bot_service.py:55 | a top-level trace whose `act` is a dict without the name `exectrade` is skipped, whether its name is another string, not a string, or missing |
| `BotServiceProofs.TraceWithoutActSkipped` | pydexbot/bot_service.py:55 | a top-level trace without `act` is skipped |
| `BotServiceProofs.TradeWithoutInlinesSkipped` | pydexbot/bot_service.py:56-57 | an `exectrade` trace with missing or empty `inline_traces` is skipped and the scan goes on |
| `BotServiceProofs.OnlyFirstInlineTraceSearched` | pydexbot/bot_service.py:58 | two `exectrade` traces whose inline lists share the first entry give the same outcome |
| `BotServiceProofs.MissingChildrenSkipped` | pydexbot/bot_service.py:58-59 | a first inline trace without its own `inline_traces` behaves like one with none |
| `BotServiceProofs.InlineWithoutDataSkipped` | pydexbot/bot_service.py:60-61 | an inline entry without `act`, or whose `act` has no `data`, is skipped |
| `BotServiceProofs.ExtractTradeSound` | pydexbot/bot_service.py:68-77 | an extracted result has a string quantity and memo, and its prices are the guarded ratios of the two amounts read |
| `BotServiceProofs.InspectInlineSound` | pydexbot/bot_service.py:60-78 | an inline entry that gives a result is a swap payout whose fields and prices are the result's |
| `BotServiceProofs.FoundIsFirstPayout` | pydexbot/bot_service.py:47-79 | a result is the first swap payout in the first inline trace of an `exectrade` trace: all earlier traces and earlier children gave nothing, and its contract, user, quantity and prices are the payout's |
| `BotServiceProofs.ExtractTradeComplete` | pydexbot/bot_service.py:65-77 | a transfer that pays out a trade is extracted as exactly that trade |
| `BotServiceProofs.PaysOutInspected` | pydexbot/bot_service.py:60-78 | an inline entry that pays out a trade gives that trade when inspected |
| `BotServiceProofs.FirstPayoutFound` | pydexbot/bot_service.py:47-79 | conversely, when a swap payout sits first in this sense, the parser reports exactly it: a receipt gives a trade if and only if it is its first payout |
| `BotServiceProofs.GuardedPricesReciprocal` | pydexbot/bot_service.py:74-75 | prices computed by the two guarded divisions are both positive or both not, and reciprocal when positive |
| `BotServiceProofs.FoundPricesReciprocal` | pydexbot/bot_service.py:72-77 | every result's two prices are both positive or both not, and multiply to 1 when positive |
| `BotServiceProofs.FirstMatchSingle` | pydexbot/bot_service.py:54-61 | scanning a single element is inspecting it |
| `BotServiceProofs.SwapReceiptOutcome` | pydexbot/bot_service.py:64-78 | a receipt of one payout: an unprefixed memo gives nothing; otherwise the memo's amount, then the quantity's amount, is read, the first failure escaping as that exception, and the trade is found with both guarded prices |
| `BotServiceProofs.DecimalSwapFound` | pydexbot/bot_service.py:47-79 | end to end: a receipt paying `"<in> <symbol>"` with memo `"flon swap by <out> <symbol>:<rest>"` gives the trade with prices out/in and in/out of the decimal amounts |
| `BotServiceProofs.WordAmountRaises` | pydexbot/bot_service.py:73 | a quantity that starts with an ASCII word without digits, other than a spelling of infinity or NaN, raises `ValueError` |
| `BotServiceProofs.WordQuantityRaises` | pydexbot/bot_service.py:72-73 | such a quantity in a swap payout makes the parser raise `ValueError` instead of giving the empty result |
| `BotServiceProofs.WordMemoRaises` | pydexbot/bot_service.py:70-72 | a swap memo whose output quantity starts with such a word makes reading the memo amount raise `ValueError` |
| `BotServiceProofs.WordMemoParseRaises` | pydexbot/bot_service.py:64-72 | such a memo in a swap payout makes the parser raise `ValueError` instead of giving the empty result, whatever the quantity |
| `Utils.BuildPermission` | pydexbot/utils.py:26-31 | threshold 1 and no waits in both branches; exactly a string longer than 12 characters gives one key entry of weight 1 and no accounts; anything else gives no keys and one account entry of weight 1 naming the argument's `active` permission |
| `Utils.Grantee` | pydexbot/utils.py:26-31 | an authority has a single grantee exactly when it has exactly one key or account entry |
| `Utils.BuildPermissionGrantee` | pydexbot/utils.py:26-31 | the argument of `build_permission` is the grantee of its result |
| `Utils.BuildPermissionInjective` | pydexbot/utils.py:26-31 | two arguments give the same authority exactly when they are equal |
| `Utils.BuildPermissionSatisfiable` | pydexbot/utils.py:28-31 | the entries of every authority built reach its threshold: total weight 1 |
| `Utils.LongTextIsKey` | pydexbot/utils.py:27-29 | every string longer than 12 characters is taken for a public key, whatever its first character |
| `Utils.NewAccountAuthorities` | pydexbot/utils.py:24-33 | the owner authority is granted to the owner key; the active one to the active key, or is identical to the owner one when the active key is `None` |
| `Utils.AuthoritiesCoincide` | pydexbot/utils.py:24-33 | owner and active authorities coincide exactly when the active key is `None` or equals the owner key |

## Left out

- Configuration loading (`pydexbot/bot_service.py:13-35`): argument parsing and YAML reads at import time are I/O. The constants they set enter the model only as parameters (`minInterval`, `maxInterval`) or not at all.
- `run_bot_service` (`pydexbot/bot_service.py:81-119`): the wallet import, timestamps, the random memo, the network push and the printing are I/O. Only the decision taken after the push is modelled, by `BotService.ServiceStep`. The push result is an input that is `None` when the push raised. The drawn interval is also an input.
- BotService.ServiceStep: every exception is treated alike, as the `except Exception` clause does. The kind of exception the push raises is not modelled. An interval too large for the platform's sleep (`OverflowError`) is not modelled: the model sleeps any non-negative drawn interval. When the sleep fails on a negative interval, the result table has already been printed; that output is not modelled.
- The `debug`, `info` and `error` print helpers and the formatting of the result table are output only.
- PyFloat.ParseFloat: Python's `float` also accepts `inf`, `nan`, underscores between digits and non-ASCII digits. These are not modelled: none of them is a quantity the swap contract writes. `PyFloat.NoDigitNoNumber`, `BotServiceProofs.WordAmountRaises`, `BotServiceProofs.WordQuantityRaises`, `BotServiceProofs.WordMemoRaises` and `BotServiceProofs.WordMemoParseRaises` therefore say nothing about such tokens: they require an ASCII token that does not spell infinity or NaN. Amounts are exact reals, so IEEE rounding of `float()` and of the two divisions is not modelled either.
- The duplicated `act["name"] == "transfer"` test at `pydexbot/bot_service.py:64` is evaluated once, because both evaluations give the same result.
- `parse_price_from_result` fills the result dictionary entry by entry, and an exception during `float` discards it. The model builds the record at once. The outcome is the same.
- `Utils.NewAccountAuthorities` covers only lines 24-25 and 32-33 of `create_account`. Packing the `newaccount` and `transfer` arguments, pushing the transaction and sleeping (`pydexbot/utils.py:34-54`) are calls into pyflonkit. So are the other helpers of `pydexbot/utils.py`: network setup, code hash, action push, key conversion, encryption, name encoding and the unimplemented RPC stub.
- `pydexbot/main.py` only calls `run_bot_service`.

## Notes on the source

- The output quantity is `memo.split("by")[1]`. That is the text after the first `by` and up to the next `by`, not everything after the first `by`. `BotService.OutputQuantity` follows the code. The round-trip lemmas therefore require the quantity to hold no `by`, which a numeric amount and a token symbol without `by` satisfy.
- The comment at `pydexbot/utils.py:27` mentions a leading `F` for public keys, but the code checks only the type and the length. `Utils.BuildPermission` follows the code, and `Utils.LongTextIsKey` states the consequence.

=== FILE: bot_service.dfy ===
/**
 * The trade-receipt parser of the exectrade bot service: given the receipt
 * a pushed `exectrade` transaction returns, find the swap transfer the
 * trade produced and report who traded what, at which price.
 */
module BotService {
  import opened Wrappers
  import opened PyStrings
  import opened PyValues
  import opened PyFloat

  /** The action the bot pushes, and the top-level trace the parser looks for. */
  const TradeAction: string := "exectrade"
  /** The name of the inline action that pays out the swap result. */
  const TransferAction: string := "transfer"
  /** The swap contract account that sends the payout. */
  const SwapAccount: string := "flon.swap"
  /** Every swap payout memo starts with this text. */
  const SwapMemoPrefix: string := "flon swap by"
  /** The memo text that precedes the output quantity. */
  const QuantityMarker: string := "by"

  /** The five entries the parser writes into its result dictionary. */
  datatype TradeInfo = TradeInfo(
    inputContract: Value,
    botUser: Value,
    inputQuantity: Value,
    price: real,
    priceReverted: real)

  /**
   * What parsing one receipt comes to: an empty dictionary, a filled one,
   * or an exception that escapes to the service loop.
   */
  datatype Outcome = Empty | Found(info: TradeInfo) | Error(kind: PyError)

  /** `num / den` when the divisor is positive, and 0 otherwise. */
  function Ratio(num: real, den: real): (r: real)
    ensures den > 0.0 ==> r * den == num
    ensures den <= 0.0 ==> r == 0.0
  {
    if den > 0.0 then num / den else 0.0
  }

  /** Calling a `str` method on a value that is not a string raises `AttributeError`. */
  function AsStr(v: Value): (r: Result<string>)
    ensures r.Ok? <==> v.Str?
    ensures r.Ok? ==> v == Str(r.value)
    ensures r.Err? ==> r.error == AttributeError
  {
    if v.Str? then Ok(v.s) else Err(AttributeError)
  }

  /**
   * The output quantity written in a swap memo: the piece after the first
   * `by` (up to the next `by`), stripped, cut at its first `:`, stripped
   * again. Only a memo without any `by` raises (`IndexError`).
   */
  function OutputQuantity(memo: string): (r: Result<string>)
    ensures r.Err? <==> !Occurs(QuantityMarker, memo)
    ensures r.Err? ==> r.error == IndexError
  {
    var parts := Split(memo, QuantityMarker);
    SplitHasSecondPiece(memo, QuantityMarker);
    if |parts| < 2 then Err(IndexError)
    else Ok(Strip(Split(Strip(parts[1]), ":")[0]))
  }

  /**
   * `float(text.split()[0])`: the number written as the first
   * whitespace-separated token. No token raises `IndexError`; a token that
   * is not a number raises `ValueError`.
   */
  function Amount(text: string): (r: Result<real>)
    ensures r.Err? ==> r.error == (if AllSpace(text) then IndexError else ValueError)
    ensures AllSpace(text) ==> r.Err?
  {
    var tokens := SplitWhitespace(text);
    if |tokens| == 0 then Err(IndexError) else ParseFloat(tokens[0])
  }

  /** The amount written in a swap memo: `float` of the first token of its output quantity. */
  function MemoAmount(memo: string): (r: Result<real>)
    ensures !Occurs(QuantityMarker, memo) ==> r == Err(IndexError)
  {
    var quantity :- OutputQuantity(memo);
    Amount(quantity)
  }

  /**
   * The first element for which `inspect` does not report "nothing here",
   * with an exception from `inspect` ending the scan just like a hit.
   * This is the shape of both loops of the parser, whose bodies either
   * `continue`, `return`, or raise.
   */
  function FirstMatch<T, R>(xs: seq<T>, inspect: T -> Result<Option<R>>): (r: Result<Option<R>>)
    ensures r == Ok(None) <==> forall k :: 0 <= k < |xs| ==> inspect(xs[k]) == Ok(None)
  {
    if |xs| == 0 then Ok(None)
    else
      var hit :- inspect(xs[0]);
      if hit.Some? then Ok(hit)
      else
        var r := FirstMatch(xs[1..], inspect);
        assert forall k :: 1 <= k < |xs| ==> xs[k] == xs[1..][k - 1];
        r
  }

  /** `trace` is a dict whose `act` is a dict whose `name` is the string `name`. */
  predicate NamedAction(trace: Value, name: string)
  {
    Field(trace, "act").Some? && Field(Field(trace, "act").value, "name") == Some(Str(name))
  }

  /**
   * The test that picks the top-level trace of the pushed trade: the trace
   * has an action, the action has a name, and that name is `exectrade`.
   * It is true exactly for such a trace; a trace or action that is not a
   * dict raises `TypeError` unless the membership test already fails.
   */
  function IsTradeTrace(trace: Value): (r: Result<bool>)
    ensures r == Ok(true) <==> NamedAction(trace, TradeAction)
    ensures trace.Dict? && Field(trace, "act").None? ==> r == Ok(false)
    ensures trace.Dict? && (Field(trace, "act").None? || Field(trace, "act").value.Dict?) ==> r.Ok?
    ensures r.Err? ==> r.error == TypeError
  {
    var hasAct :- Contains(trace, "act");
    if !hasAct then Ok(false)
    else
      var act :- GetItem(trace, "act");
      var hasName :- Contains(act, "name");
      if !hasName then Ok(false)
      else
        var name :- GetItem(act, "name");
        Ok(name == Str(TradeAction))
  }

  /** A `transfer` from the swap account whose memo is a string starting with the swap prefix. */
  predicate SwapPayoutFields(act: Value, data: Value)
  {
    && Field(act, "name") == Some(Str(TransferAction))
    && Field(data, "from") == Some(Str(SwapAccount))
    && Field(data, "memo").Some? && Field(data, "memo").value.Str?
    && SwapMemoPrefix <= Field(data, "memo").value.s
  }

  /**
   * The match test on an inline action: a `transfer` from the swap account
   * whose memo starts with the swap prefix. The source spells the name
   * test twice; both spellings evaluate the same lookup, so it is made once.
   * A missing key raises `KeyError`, a value that is not a dict `TypeError`,
   * and a memo that is not a string `AttributeError`.
   */
  function IsSwapPayout(act: Value, data: Value): (r: Result<bool>)
    ensures r == Ok(true) <==> SwapPayoutFields(act, data)
    ensures Field(act, "name").Some? && Field(act, "name") != Some(Str(TransferAction)) ==> r == Ok(false)
    ensures r.Err? ==> r.error == KeyError || r.error == TypeError || r.error == AttributeError
  {
    var name :- GetItem(act, "name");
    if name != Str(TransferAction) then Ok(false)
    else
      var from :- GetItem(data, "from");
      if from != Str(SwapAccount) then Ok(false)
      else
        var memo :- GetItem(data, "memo");
        StartsWith(memo, SwapMemoPrefix)
  }

  /** Fill the result from a matched payout: the copied fields and both prices. */
  function ExtractTrade(act: Value, data: Value): (r: Result<TradeInfo>)
    ensures r.Ok? ==> Field(act, "account") == Some(r.value.inputContract)
    ensures r.Ok? ==> Field(data, "to") == Some(r.value.botUser)
    ensures r.Ok? ==> Field(data, "quantity") == Some(r.value.inputQuantity)
  {
    var contract :- GetItem(act, "account");
    var user :- GetItem(data, "to");
    var quantity :- GetItem(data, "quantity");
    var memoValue :- GetItem(data, "memo");
    var memo :- AsStr(memoValue);
    var outAmount :- MemoAmount(memo);
    var inText :- AsStr(quantity);
    var inAmount :- Amount(inText);
    Ok(TradeInfo(contract, user, quantity, Ratio(outAmount, inAmount), Ratio(inAmount, outAmount)))
  }

  /**
   * One pass of the inner loop: skip an entry without `act` or `act.data`,
   * else test and extract. A result comes only from an entry with both
   * that passed the match test.
   */
  function InspectInline(inline: Value): (r: Result<Option<TradeInfo>>)
    ensures inline.Dict? && Field(inline, "act").None? ==> r == Ok(None)
    ensures (Field(inline, "act").Some? && Field(inline, "act").value.Dict?
             && Field(Field(inline, "act").value, "data").None?) ==> r == Ok(None)
    ensures r.Ok? && r.value.Some? ==>
              && Field(inline, "act").Some? && Field(Field(inline, "act").value, "data").Some?
              && var act := Field(inline, "act").value;
              && var data := Field(act, "data").value;
              && IsSwapPayout(act, data) == Ok(true)
              && ExtractTrade(act, data) == Ok(r.value.value)
  {
    var hasAct :- Contains(inline, "act");
    if !hasAct then Ok(None)
    else
      var act :- GetItem(inline, "act");
      var hasData :- Contains(act, "data");
      if !hasData then Ok(None)
      else
        var data :- GetItem(act, "data");
        var matched :- IsSwapPayout(act, data);
        if !matched then Ok(None)
        else
          var info :- ExtractTrade(act, data);
          Ok(Some(info))
  }

  /**
   * The children of the first inline trace of `trace`, when its
   * `inline_traces` is a non-empty list whose first entry is a dict (a
   * missing child list counts as empty).
   */
  function FirstInlineChildren(trace: Value): Option<seq<Value>>
  {
    match Field(trace, "inline_traces")
    case Some(List(xs)) =>
      if |xs| == 0 || !xs[0].Dict? then None
      else
        (match Field(xs[0], "inline_traces")
         case None => Some([])
         case Some(children) =>
           match Iterate(children)
           case Ok(items) => Some(items)
           case Err(_) => None)
    case _ => None
  }

  /**
   * One pass of the outer loop: skip a trace that is not `exectrade` or
   * has no inline traces; otherwise search the children of its first
   * inline trace.
   */
  function ScanTrace(trace: Value): (r: Result<Option<TradeInfo>>)
    ensures r.Ok? && r.value.Some? ==> NamedAction(trace, TradeAction) && FirstInlineChildren(trace).Some?
    ensures NamedAction(trace, TradeAction) && FirstInlineChildren(trace).Some?
            ==> r == FirstMatch(FirstInlineChildren(trace).value, InspectInline)
    ensures NamedAction(trace, TradeAction)
            && (Field(trace, "inline_traces").None? || Field(trace, "inline_traces") == Some(List([])))
            ==> r == Ok(None)
  {
    var isTrade :- IsTradeTrace(trace);
    if !isTrade then Ok(None)
    else
      // an `exectrade` trace is a dict, so testing for and reading
      // `inline_traces` cannot raise
      match Field(trace, "inline_traces")
      case None => Ok(None)
      case Some(inlineTraces) =>
        if !Truthy(inlineTraces) then Ok(None)
        else
          var first :- GetFirst(inlineTraces);
          var swapInlines :- GetOr(first, "inline_traces", List([]));
          var children :- Iterate(swapInlines);
          FirstMatch(children, InspectInline)
  }

  /** The parser's view of a scan: the exception, the empty or the filled dictionary. */
  function ToOutcome(r: Result<Option<TradeInfo>>): (o: Outcome)
    ensures o.Error? <==> r.Err?
    ensures o.Error? ==> o.kind == r.error
    ensures o == Empty <==> r == Ok(None)
    ensures o.Found? ==> r == Ok(Some(o.info))
  {
    match r
    case Err(e) => Error(e)
    case Ok(None) => Empty
    case Ok(Some(info)) => Found(info)
  }

  /** The top-level traces of a receipt whose `processed.action_traces` can be iterated. */
  function TopTraces(trx: Value): Option<seq<Value>>
  {
    match Field(trx, "processed")
    case None => None
    case Some(processed) =>
      match Field(processed, "action_traces")
      case None => None
      case Some(traces) =>
        match Iterate(traces)
        case Ok(items) => Some(items)
        case Err(_) => None
  }

  /**
   * The scan behind `parse_price_from_result`, with the exceptions it lets
   * through: the traces under `processed.action_traces` are searched in
   * order, and only a receipt that has them can give a result.
   */
  function ScanReceipt(trx: Value): (r: Result<Option<TradeInfo>>)
    ensures TopTraces(trx).Some? ==> r == FirstMatch(TopTraces(trx).value, ScanTrace)
    ensures r.Ok? && r.value.Some? ==> TopTraces(trx).Some?
    ensures trx.Dict? && Field(trx, "processed").None? ==> r == Ok(None)
  {
    var hasProcessed :- Contains(trx, "processed");
    if !hasProcessed then Ok(None)
    else
      var processed :- GetItem(trx, "processed");
      var hasTraces :- Contains(processed, "action_traces");
      if !hasTraces then Ok(None)
      else
        var traces :- GetItem(processed, "action_traces");
        var items :- Iterate(traces);
        FirstMatch(items, ScanTrace)
  }

  /**
   * `parse_price_from_result(trx)`. A receipt (a `dict`) without
   * `processed`, or whose `processed` is a `dict` without `action_traces`,
   * gives the empty result.
   */
  function ParsePriceFromResult(trx: Value): (o: Outcome)
    ensures trx.Dict? && Field(trx, "processed").None? ==> o == Empty
    ensures (Field(trx, "processed").Some? && Field(trx, "processed").value.Dict?
             && Field(Field(trx, "processed").value, "action_traces").None?) ==> o == Empty
    ensures o.Found? ==> trx.Dict? && Field(trx, "processed").Some?
  {
    ToOutcome(ScanReceipt(trx))
  }

  /** How one pass of the service loop ends. */
  datatype Report = TradeTable(info: TradeInfo) | NoTrade | Failed

  datatype LoopStep = LoopStep(report: Report, sleepSeconds: int)

  /** The fixed pause after an exception in the service loop. */
  const RetryDelaySeconds: int := 3

  /**
   * One pass of the service loop after the push. `pushed` is the receipt,
   * or `None` when the push raised; `drawn` is the value
   * `random.randint(minInterval, maxInterval)` returns (that call raises
   * when the range is empty). `time.sleep` raises on a negative interval,
   * after the result has been printed. Any exception is logged and
   * followed by the fixed retry delay; otherwise the parsed result is
   * reported and the loop sleeps for the drawn interval.
   */
  function ServiceStep(pushed: Option<Value>, minInterval: int, maxInterval: int, drawn: int): (s: LoopStep)
    requires minInterval <= maxInterval ==> minInterval <= drawn <= maxInterval
    ensures s.report.Failed? <==> pushed.None? || minInterval > maxInterval || drawn < 0
                                  || ParsePriceFromResult(pushed.value).Error?
    ensures s.report.Failed? ==> s.sleepSeconds == RetryDelaySeconds
    ensures !s.report.Failed? ==> minInterval <= s.sleepSeconds <= maxInterval
    ensures !s.report.Failed? ==> s.sleepSeconds == drawn
    ensures s.sleepSeconds >= 0
    ensures s.report.TradeTable? ==> pushed.Some? && ParsePriceFromResult(pushed.value) == Found(s.report.info)
    ensures s.report.NoTrade? ==> pushed.Some? && ParsePriceFromResult(pushed.value) == Empty
  {
    if pushed.None? || minInterval > maxInterval then LoopStep(Failed, RetryDelaySeconds)
    else
      match ParsePriceFromResult(pushed.value)
      case Error(_) => LoopStep(Failed, RetryDelaySeconds)
      case _ => if drawn < 0 then LoopStep(Failed, RetryDelaySeconds) else LoopStep(ReportOf(pushed.value), drawn)
  }

  /** What the loop prints for a receipt that parses: the table of a trade, or "no trade". */
  function ReportOf(trx: Value): (rep: Report)
    requires !ParsePriceFromResult(trx).Error?
    ensures rep.TradeTable? <==> ParsePriceFromResult(trx).Found?
    ensures rep.TradeTable? ==> ParsePriceFromResult(trx) == Found(rep.info)
    ensures !rep.Failed?
  {
    match ParsePriceFromResult(trx)
    case Found(info) => TradeTable(info)
    case _ => NoTrade
  }

  /**
   * Once the receipt is in hand and the range is valid, only the receipt
   * decides what a pass reports: every admissible draw reports the same.
   */
  lemma ReportIndependentOfDraw(trx: Value, minInterval: int, maxInterval: int, d1: int, d2: int)
    requires 0 <= minInterval <= maxInterval
    requires minInterval <= d1 <= maxInterval && minInterval <= d2 <= maxInterval
    ensures ServiceStep(Some(trx), minInterval, maxInterval, d1).report
            == ServiceStep(Some(trx), minInterval, maxInterval, d2).report
  {
  }
}

=== FILE: bot_service_proofs.dfy ===
/**
 * Properties of the trade-receipt parser: which traces it looks at, which
 * it skips, where it stops, what a result guarantees, and what it makes of
 * a receipt built the way the swap contract writes one.
 */
module BotServiceProofs {
  import opened Wrappers
  import opened PyStrings
  import opened PyValues
  import opened PyFloat
  import opened BotService
  import opened MemoProofs

  // ---------------------------------------------------------------------
  // The scan shared by both loops

  /**
   * A scan that is not empty-handed stopped at a definite element: the
   * first one whose inspection did not say "nothing here".
   */
  lemma {:induction false} FirstMatchStop<T, R>(xs: seq<T>, inspect: T -> Result<Option<R>>) returns (k: nat)
    requires FirstMatch(xs, inspect) != Ok(None)
    ensures k < |xs|
    ensures inspect(xs[k]) == FirstMatch(xs, inspect)
    ensures forall m :: 0 <= m < k ==> inspect(xs[m]) == Ok(None)
  {
    if inspect(xs[0]) != Ok(None) {
      k := 0;
    } else {
      var k' := FirstMatchStop(xs[1..], inspect);
      k := k' + 1;
      assert forall m :: 1 <= m < k ==> xs[m] == xs[1..][m - 1];
    }
  }

  /**
   * The converse: when every element before `k` gives nothing and `k`
   * gives something, the scan stops at `k`.
   */
  lemma {:induction false} FirstMatchAt<T, R>(xs: seq<T>, inspect: T -> Result<Option<R>>, k: nat)
    requires k < |xs|
    requires forall m :: 0 <= m < k ==> inspect(xs[m]) == Ok(None)
    requires inspect(xs[k]) != Ok(None)
    ensures FirstMatch(xs, inspect) == inspect(xs[k])
  {
    if k > 0 {
      assert inspect(xs[0]) == Ok(None);
      assert forall m :: 0 <= m < k - 1 ==> xs[1..][m] == xs[m + 1];
      FirstMatchAt(xs[1..], inspect, k - 1);
    }
  }

  /**
   * Scanning `a + b` is scanning `a`, and only when `a` yields nothing,
   * scanning `b`: elements after the first hit are never looked at.
   */
  lemma {:induction false} FirstMatchAppend<T, R>(a: seq<T>, b: seq<T>, inspect: T -> Result<Option<R>>)
    ensures FirstMatch(a + b, inspect)
            == if FirstMatch(a, inspect) == Ok(None) then FirstMatch(b, inspect) else FirstMatch(a, inspect)
  {
    if |a| == 0 {
      assert a + b == b;
    } else {
      assert (a + b)[0] == a[0];
      assert (a + b)[1..] == a[1..] + b;
      FirstMatchAppend(a[1..], b, inspect);
    }
  }

  // ---------------------------------------------------------------------
  // Receipts as the chain writes them

  /** A receipt whose `processed.action_traces` is the list `traces`. */
  function Receipt(traces: seq<Value>): Value
  {
    Dict([("processed", Dict([("action_traces", List(traces))]))])
  }

  /** The first inline trace of a trade, with the inline actions `children`. */
  function SwapTrace(children: seq<Value>): Value
  {
    Dict([("inline_traces", List(children))])
  }

  /** An `exectrade` trace whose first inline trace has the inline actions `children`. */
  function TradeTrace(children: seq<Value>): Value
  {
    Dict([("act", Dict([("name", Str(TradeAction))])),
          ("inline_traces", List([SwapTrace(children)]))])
  }

  /** The arguments of the swap contract's payout transfer. */
  function PayoutData(to: string, quantity: string, memo: string): Value
  {
    Dict([("from", Str(SwapAccount)), ("to", Str(to)), ("quantity", Str(quantity)), ("memo", Str(memo))])
  }

  /** The payout transfer action, sent by the token contract `account`. */
  function PayoutAct(account: string, to: string, quantity: string, memo: string): Value
  {
    Dict([("account", Str(account)), ("name", Str(TransferAction)), ("data", PayoutData(to, quantity, memo))])
  }

  /** The payout transfer as an inline action trace. */
  function Payout(account: string, to: string, quantity: string, memo: string): Value
  {
    Dict([("act", PayoutAct(account, to, quantity, memo))])
  }

  /** The receipt of one trade that paid out through the swap contract. */
  function SwapReceipt(account: string, to: string, quantity: string, memo: string): Value
  {
    Receipt([TradeTrace([Payout(account, to, quantity, memo)])])
  }

  lemma ReceiptFields(traces: seq<Value>)
    ensures Field(Receipt(traces), "processed") == Some(Dict([("action_traces", List(traces))]))
    ensures Field(Field(Receipt(traces), "processed").value, "action_traces") == Some(List(traces))
  {
  }

  lemma TradeTraceFields(children: seq<Value>)
    ensures Field(TradeTrace(children), "act") == Some(Dict([("name", Str(TradeAction))]))
    ensures NamedAction(TradeTrace(children), TradeAction)
    ensures Field(TradeTrace(children), "inline_traces") == Some(List([SwapTrace(children)]))
    ensures Field(SwapTrace(children), "inline_traces") == Some(List(children))
  {
    var es := TradeTrace(children).entries;
    assert es[1..] == [es[1]];
  }

  lemma PayoutDataFields(to: string, quantity: string, memo: string)
    ensures Field(PayoutData(to, quantity, memo), "from") == Some(Str(SwapAccount))
    ensures Field(PayoutData(to, quantity, memo), "to") == Some(Str(to))
    ensures Field(PayoutData(to, quantity, memo), "quantity") == Some(Str(quantity))
    ensures Field(PayoutData(to, quantity, memo), "memo") == Some(Str(memo))
  {
    var data := PayoutData(to, quantity, memo).entries;
    assert data[1..] == [data[1], data[2], data[3]];
    assert data[2..] == [data[2], data[3]];
    assert data[3..] == [data[3]];
  }

  lemma PayoutFields(account: string, to: string, quantity: string, memo: string)
    ensures Field(Payout(account, to, quantity, memo), "act") == Some(PayoutAct(account, to, quantity, memo))
    ensures Field(PayoutAct(account, to, quantity, memo), "account") == Some(Str(account))
    ensures Field(PayoutAct(account, to, quantity, memo), "name") == Some(Str(TransferAction))
    ensures Field(PayoutAct(account, to, quantity, memo), "data") == Some(PayoutData(to, quantity, memo))
  {
    var act := PayoutAct(account, to, quantity, memo).entries;
    assert act[1..] == [act[1], act[2]];
    assert act[2..] == [act[2]];
  }

  /** A well-formed receipt is parsed by scanning its traces in order. */
  lemma ReceiptScansTraces(traces: seq<Value>)
    ensures ParsePriceFromResult(Receipt(traces)) == ToOutcome(FirstMatch(traces, ScanTrace))
  {
    ReceiptFields(traces);
  }

  /** A trade trace is searched by scanning the children of its first inline trace. */
  lemma TradeTraceScansChildren(children: seq<Value>)
    ensures ScanTrace(TradeTrace(children)) == FirstMatch(children, InspectInline)
  {
    TradeTraceFields(children);
    assert FirstInlineChildren(TradeTrace(children)) == Some(children);
  }

  // ---------------------------------------------------------------------
  // Which traces are looked at

  /** A receipt without traces has no trade. */
  lemma NoTracesNoTrade()
    ensures ParsePriceFromResult(Receipt([])) == Empty
  {
    ReceiptScansTraces([]);
  }

  /** Once a prefix of the traces gives a trade or raises, later traces do not matter. */
  lemma LaterTracesIgnored(a: seq<Value>, b: seq<Value>)
    requires ParsePriceFromResult(Receipt(a)) != Empty
    ensures ParsePriceFromResult(Receipt(a + b)) == ParsePriceFromResult(Receipt(a))
  {
    FirstMatchAppend(a, b, ScanTrace);
    ReceiptScansTraces(a);
    ReceiptScansTraces(b);
    ReceiptScansTraces(a + b);
  }

  /** Traces that give nothing are passed over: the scan goes on with the rest. */
  lemma EmptyPrefixPassedOver(a: seq<Value>, b: seq<Value>)
    requires ParsePriceFromResult(Receipt(a)) == Empty
    ensures ParsePriceFromResult(Receipt(a + b)) == ParsePriceFromResult(Receipt(b))
  {
    ReceiptScansTraces(a);
    assert FirstMatch(a, ScanTrace) == Ok(None);
    FirstMatchAppend(a, b, ScanTrace);
    ReceiptScansTraces(b);
    ReceiptScansTraces(a + b);
  }

  /**
   * A top-level trace whose `act` is a dict not named `exectrade` is
   * skipped: another name, a name that is not a string, or no name at all.
   */
  lemma OtherActionSkipped(trace: Value, rest: seq<Value>)
    requires trace.Dict? && Field(trace, "act").Some? && Field(trace, "act").value.Dict?
    requires !NamedAction(trace, TradeAction)
    ensures ParsePriceFromResult(Receipt([trace] + rest)) == ParsePriceFromResult(Receipt(rest))
  {
    assert ScanTrace(trace) == Ok(None);
    FirstMatchAppend([trace], rest, ScanTrace);
    ReceiptScansTraces([trace] + rest);
    ReceiptScansTraces(rest);
  }

  /** A trace (a dict) without an `act` is skipped. */
  lemma TraceWithoutActSkipped(trace: Value, rest: seq<Value>)
    requires trace.Dict? && Field(trace, "act").None?
    ensures ParsePriceFromResult(Receipt([trace] + rest)) == ParsePriceFromResult(Receipt(rest))
  {
    assert ScanTrace(trace) == Ok(None);
    FirstMatchAppend([trace], rest, ScanTrace);
    ReceiptScansTraces([trace] + rest);
    ReceiptScansTraces(rest);
  }

  /**
   * An `exectrade` trace whose `inline_traces` is missing or empty is
   * skipped: the scan continues with the next trace instead of returning.
   */
  lemma TradeWithoutInlinesSkipped(trace: Value, rest: seq<Value>)
    requires NamedAction(trace, TradeAction)
    requires Field(trace, "inline_traces").None? || Field(trace, "inline_traces") == Some(List([]))
    ensures ParsePriceFromResult(Receipt([trace] + rest)) == ParsePriceFromResult(Receipt(rest))
  {
    assert ScanTrace(trace) == Ok(None);
    FirstMatchAppend([trace], rest, ScanTrace);
    ReceiptScansTraces([trace] + rest);
    ReceiptScansTraces(rest);
  }

  /**
   * Only the first inline trace of an `exectrade` trace is searched: two
   * such traces whose inline lists start with the same entry give the same
   * result, whatever else they hold.
   */
  lemma OnlyFirstInlineTraceSearched(t1: Value, t2: Value, xs1: seq<Value>, xs2: seq<Value>)
    requires NamedAction(t1, TradeAction) && NamedAction(t2, TradeAction)
    requires Field(t1, "inline_traces") == Some(List(xs1)) && Field(t2, "inline_traces") == Some(List(xs2))
    requires |xs1| > 0 && |xs2| > 0 && xs1[0] == xs2[0]
    ensures ScanTrace(t1) == ScanTrace(t2)
  {
    assert IsTradeTrace(t1) == Ok(true) && IsTradeTrace(t2) == Ok(true);
    assert GetFirst(List(xs1)) == GetFirst(List(xs2));
  }

  /** A first inline trace (a dict) without its own `inline_traces` has no children to search. */
  lemma MissingChildrenSkipped(trace: Value, xs: seq<Value>, rest: seq<Value>)
    requires NamedAction(trace, TradeAction)
    requires Field(trace, "inline_traces") == Some(List(xs))
    requires |xs| > 0 && xs[0].Dict? && Field(xs[0], "inline_traces").None?
    ensures ParsePriceFromResult(Receipt([trace] + rest)) == ParsePriceFromResult(Receipt(rest))
  {
    assert ScanTrace(trace) == Ok(None);
    FirstMatchAppend([trace], rest, ScanTrace);
    ReceiptScansTraces([trace] + rest);
    ReceiptScansTraces(rest);
  }

  /** An inline entry (a dict) without `act`, or whose `act` (a dict) has no `data`, is skipped. */
  lemma InlineWithoutDataSkipped(entry: Value, others: seq<Value>)
    requires entry.Dict?
    requires Field(entry, "act").None? || (Field(entry, "act").value.Dict? && Field(Field(entry, "act").value, "data").None?)
    ensures ScanTrace(TradeTrace([entry] + others)) == ScanTrace(TradeTrace(others))
  {
    assert InspectInline(entry) == Ok(None);
    FirstMatchAppend([entry], others, InspectInline);
    TradeTraceScansChildren([entry] + others);
    TradeTraceScansChildren(others);
  }

  // ---------------------------------------------------------------------
  // What a result guarantees

  /**
   * `entry` is a swap payout transfer and `info` is what the parser fills
   * in from it: the token contract, the receiver and the quantity copied
   * over, and the two guarded prices of the amounts in quantity and memo.
   */
  predicate PaysOut(entry: Value, info: TradeInfo)
  {
    && Field(entry, "act").Some?
    && Field(Field(entry, "act").value, "data").Some?
    && TransferPaysOut(Field(entry, "act").value, Field(Field(entry, "act").value, "data").value, info)
  }

  predicate TransferPaysOut(act: Value, data: Value, info: TradeInfo)
  {
    && SwapPayoutFields(act, data)
    && Field(act, "account") == Some(info.inputContract)
    && Field(data, "to") == Some(info.botUser)
    && Field(data, "quantity") == Some(info.inputQuantity)
    && Field(data, "memo").Some? && Field(data, "memo").value.Str?
    && PricedFrom(Field(data, "memo").value.s, info)
  }

  /** `memo` is a swap memo and the prices of `info` are read from it and the quantity. */
  predicate PricedFrom(memo: string, info: TradeInfo)
  {
    && SwapMemoPrefix <= memo
    && info.inputQuantity.Str?
    && MemoAmount(memo).Ok? && Amount(info.inputQuantity.s).Ok?
    && info.price == Ratio(MemoAmount(memo).value, Amount(info.inputQuantity.s).value)
    && info.priceReverted == Ratio(Amount(info.inputQuantity.s).value, MemoAmount(memo).value)
  }

  /**
   * The result `info` comes from child `j` of the first inline trace of
   * top-level trace `i`, an `exectrade` trace, and every trace before `i`
   * and every child before `j` gave nothing.
   */
  predicate FirstPayoutAt(trx: Value, i: nat, j: nat, info: TradeInfo)
  {
    && TopTraces(trx).Some?
    && var traces := TopTraces(trx).value;
    && i < |traces|
    && (forall k :: 0 <= k < i ==> ScanTrace(traces[k]) == Ok(None))
    && NamedAction(traces[i], TradeAction)
    && FirstInlineChildren(traces[i]).Some?
    && var children := FirstInlineChildren(traces[i]).value;
    && j < |children|
    && (forall k :: 0 <= k < j ==> InspectInline(children[k]) == Ok(None))
    && PaysOut(children[j], info)
  }

  lemma ExtractTradeSound(act: Value, data: Value, info: TradeInfo)
    requires ExtractTrade(act, data) == Ok(info)
    ensures info.inputQuantity.Str?
    ensures Field(data, "memo").Some? && Field(data, "memo").value.Str?
    ensures var memo := Field(data, "memo").value.s;
            && MemoAmount(memo).Ok? && Amount(info.inputQuantity.s).Ok?
            && info.price == Ratio(MemoAmount(memo).value, Amount(info.inputQuantity.s).value)
            && info.priceReverted == Ratio(Amount(info.inputQuantity.s).value, MemoAmount(memo).value)
  {
  }

  lemma InspectInlineSound(entry: Value, info: TradeInfo)
    requires InspectInline(entry) == Ok(Some(info))
    ensures PaysOut(entry, info)
  {
    var act := Field(entry, "act").value;
    var data := Field(act, "data").value;
    ExtractTradeSound(act, data, info);
  }

  /**
   * Soundness: a result names the first payout transfer, inside the first
   * `exectrade` trace that has one, and holds exactly the fields and
   * prices of that transfer.
   */
  lemma FoundIsFirstPayout(trx: Value, info: TradeInfo) returns (i: nat, j: nat)
    requires ParsePriceFromResult(trx) == Found(info)
    ensures FirstPayoutAt(trx, i, j, info)
  {
    i := FoundInTrace(trx, info);
    j := FoundInChildren(TopTraces(trx).value[i], info);
  }

  /** The top-level trace a result comes from. */
  lemma FoundInTrace(trx: Value, info: TradeInfo) returns (i: nat)
    requires ParsePriceFromResult(trx) == Found(info)
    ensures TopTraces(trx).Some? && i < |TopTraces(trx).value|
    ensures forall k :: 0 <= k < i ==> ScanTrace(TopTraces(trx).value[k]) == Ok(None)
    ensures ScanTrace(TopTraces(trx).value[i]) == Ok(Some(info))
  {
    assert ScanReceipt(trx) == Ok(Some(info));
    var traces := TopTraces(trx).value;
    assert FirstMatch(traces, ScanTrace) == Ok(Some(info));
    i := FirstMatchStop(traces, ScanTrace);
  }

  /** The inline action of a trade trace a result comes from. */
  lemma FoundInChildren(trace: Value, info: TradeInfo) returns (j: nat)
    requires ScanTrace(trace) == Ok(Some(info))
    ensures NamedAction(trace, TradeAction) && FirstInlineChildren(trace).Some?
    ensures j < |FirstInlineChildren(trace).value|
    ensures forall k :: 0 <= k < j ==> InspectInline(FirstInlineChildren(trace).value[k]) == Ok(None)
    ensures PaysOut(FirstInlineChildren(trace).value[j], info)
  {
    var children := FirstInlineChildren(trace).value;
    j := FirstMatchStop(children, InspectInline);
    InspectInlineSound(children[j], info);
  }

  /** A transfer that pays out `info` is extracted as exactly `info`. */
  lemma ExtractTradeComplete(act: Value, data: Value, info: TradeInfo)
    requires TransferPaysOut(act, data, info)
    ensures ExtractTrade(act, data) == Ok(info)
  {
    var memo := Field(data, "memo").value.s;
    assert AsStr(Field(data, "memo").value) == Ok(memo);
    assert AsStr(info.inputQuantity) == Ok(info.inputQuantity.s);
  }

  /** An inline entry that pays out `info` gives `info` when inspected. */
  lemma PaysOutInspected(entry: Value, info: TradeInfo)
    requires PaysOut(entry, info)
    ensures InspectInline(entry) == Ok(Some(info))
  {
    var act := Field(entry, "act").value;
    var data := Field(act, "data").value;
    assert Contains(entry, "act") == Ok(true);
    assert Contains(act, "data") == Ok(true);
    ExtractTradeComplete(act, data, info);
  }

  /**
   * Completeness: when a payout transfer sits where `FirstPayoutAt` says,
   * that is the result the parser reports. With `FoundIsFirstPayout`, a
   * receipt gives `info` exactly when `info` is its first payout.
   */
  lemma FirstPayoutFound(trx: Value, i: nat, j: nat, info: TradeInfo)
    requires FirstPayoutAt(trx, i, j, info)
    ensures ParsePriceFromResult(trx) == Found(info)
  {
    var traces := TopTraces(trx).value;
    var children := FirstInlineChildren(traces[i]).value;
    PaysOutInspected(children[j], info);
    FirstMatchAt(children, InspectInline, j);
    FirstMatchAt(traces, ScanTrace, i);
  }

  /** Both prices positive or both not, and reciprocal when positive. */
  predicate Reciprocal(price: real, reverted: real)
  {
    && (price > 0.0 <==> reverted > 0.0)
    && (price > 0.0 ==> price * reverted == 1.0)
  }

  lemma GuardedPricesReciprocal(price: real, reverted: real, inAmount: real, outAmount: real)
    requires price == Ratio(outAmount, inAmount) && reverted == Ratio(inAmount, outAmount)
    ensures Reciprocal(price, reverted)
  {
    RatiosReciprocal(inAmount, outAmount);
  }

  /**
   * The two reported prices are both positive or both not; when positive
   * they are reciprocal. No receipt makes the parser divide by zero.
   */
  lemma FoundPricesReciprocal(trx: Value, info: TradeInfo)
    requires ParsePriceFromResult(trx) == Found(info)
    ensures Reciprocal(info.price, info.priceReverted)
  {
    var i, j := FoundIsFirstPayout(trx, info);
    var children := FirstInlineChildren(TopTraces(trx).value[i]).value;
    var data := Field(Field(children[j], "act").value, "data").value;
    var memo := Field(data, "memo").value.s;
    GuardedPricesReciprocal(info.price, info.priceReverted,
                            Amount(info.inputQuantity.s).value, MemoAmount(memo).value);
  }

  // ---------------------------------------------------------------------
  // What a swap receipt gives

  lemma FirstMatchSingle<T, R>(x: T, inspect: T -> Result<Option<R>>)
    ensures FirstMatch([x], inspect) == inspect(x)
  {
    assert [x][1..] == [];
  }

  /**
   * The receipt of one payout transfer: an unprefixed memo gives no trade;
   * with the prefix, the memo amount and then the quantity amount are read,
   * the first failure escaping as an exception, and otherwise the trade is
   * found with both guarded prices.
   */
  lemma SwapReceiptOutcome(account: string, to: string, quantity: string, memo: string)
    ensures !(SwapMemoPrefix <= memo) ==> ParsePriceFromResult(SwapReceipt(account, to, quantity, memo)) == Empty
    ensures SwapMemoPrefix <= memo && MemoAmount(memo).Err?
            ==> ParsePriceFromResult(SwapReceipt(account, to, quantity, memo)) == Error(MemoAmount(memo).error)
    ensures SwapMemoPrefix <= memo && MemoAmount(memo).Ok? && Amount(quantity).Err?
            ==> ParsePriceFromResult(SwapReceipt(account, to, quantity, memo)) == Error(Amount(quantity).error)
    ensures SwapMemoPrefix <= memo && MemoAmount(memo).Ok? && Amount(quantity).Ok?
            ==> ParsePriceFromResult(SwapReceipt(account, to, quantity, memo))
                == Found(TradeInfo(Str(account), Str(to), Str(quantity),
                                   Ratio(MemoAmount(memo).value, Amount(quantity).value),
                                   Ratio(Amount(quantity).value, MemoAmount(memo).value)))
  {
    var payout := Payout(account, to, quantity, memo);
    ReceiptScansTraces([TradeTrace([payout])]);
    FirstMatchSingle(TradeTrace([payout]), ScanTrace);
    TradeTraceScansChildren([payout]);
    FirstMatchSingle(payout, InspectInline);
    PayoutFields(account, to, quantity, memo);
    PayoutDataFields(to, quantity, memo);
  }

  /**
   * End to end: the receipt of a swap payout of `"<in> <symbol>"` whose
   * memo reads `"flon swap by <out> <symbol>:<rest>"` gives the trade with
   * prices out/in and in/out of the two decimal amounts.
   */
  lemma DecimalSwapFound(account: string, to: string,
                         inWhole: nat, inFrac: string, inSymbol: string,
                         outWhole: nat, outFrac: string, outSymbol: string, rest: string)
    requires AllDigits(inFrac) && AllDigits(outFrac)
    requires |outSymbol| > 0 && NoSpace(outSymbol)
    requires !Occurs(":", outSymbol) && !Occurs(QuantityMarker, outSymbol)
    ensures ParsePriceFromResult(
              SwapReceipt(account, to, QuantityText(inWhole, inFrac, inSymbol),
                          SwapMemoPrefix + " " + QuantityText(outWhole, outFrac, outSymbol) + ":" + rest))
            == Found(TradeInfo(Str(account), Str(to), Str(QuantityText(inWhole, inFrac, inSymbol)),
                               Ratio(DecimalValue(outWhole, outFrac), DecimalValue(inWhole, inFrac)),
                               Ratio(DecimalValue(inWhole, inFrac), DecimalValue(outWhole, outFrac))))
  {
    var quantity := QuantityText(inWhole, inFrac, inSymbol);
    var paid := QuantityText(outWhole, outFrac, outSymbol);
    var memo := SwapMemoPrefix + " " + paid + ":" + rest;
    MemoAmountRoundTrip(outWhole, outFrac, outSymbol, rest);
    AmountRoundTrip(inWhole, inFrac, inSymbol);
    SwapReceiptOutcome(account, to, quantity, memo);
  }

  /**
   * A payout whose quantity starts with a word instead of a number raises
   * `ValueError` out of the parser rather than giving the empty result
   * (a word that spells infinity or NaN is a number to Python).
   */
  lemma WordQuantityRaises(account: string, to: string, word: string, symbol: string, memo: string)
    requires SwapMemoPrefix <= memo && MemoAmount(memo).Ok?
    requires |word| > 0 && NoSpace(word) && forall k :: 0 <= k < |word| ==> !IsDigit(word[k])
    requires IsAscii(word) && !IsSpecialSpelling(word)
    ensures ParsePriceFromResult(SwapReceipt(account, to, word + " " + symbol, memo)) == Error(ValueError)
  {
    WordAmountRaises(word, symbol);
    SwapReceiptOutcome(account, to, word + " " + symbol, memo);
  }

  lemma WordAmountRaises(word: string, symbol: string)
    requires |word| > 0 && NoSpace(word) && forall k :: 0 <= k < |word| ==> !IsDigit(word[k])
    requires IsAscii(word) && !IsSpecialSpelling(word)
    ensures Amount(word + " " + symbol) == Err(ValueError)
  {
    assert word + " " + symbol == word + (" " + symbol);
    FirstTokenBeforeSpace(word, " " + symbol);
    NoDigitNoNumber(word);
  }

  /**
   * A swap memo whose output quantity starts with a word instead of a
   * number makes reading the memo amount raise `ValueError`.
   */
  lemma WordMemoRaises(word: string, symbol: string, rest: string)
    requires |word| > 0 && NoSpace(word) && forall k :: 0 <= k < |word| ==> !IsDigit(word[k])
    requires IsAscii(word) && !IsSpecialSpelling(word)
    requires |symbol| > 0 && NoSpace(symbol)
    requires !Occurs(":", word + " " + symbol) && !Occurs(QuantityMarker, word + " " + symbol)
    ensures SwapMemoPrefix <= SwapMemoPrefix + " " + (word + " " + symbol) + ":" + rest
    ensures MemoAmount(SwapMemoPrefix + " " + (word + " " + symbol) + ":" + rest) == Err(ValueError)
  {
    var q := word + " " + symbol;
    assert SwapMemoPrefix + " " + q + ":" + rest == SwapMemoPrefix + (" " + q + ":" + rest);
    assert q[0] == word[0];
    assert q[|q| - 1] == symbol[|symbol| - 1];
    OutputQuantityRoundTrip(q, rest);
    WordAmountRaises(word, symbol);
  }

  /**
   * End to end: a swap payout whose memo carries a word instead of the
   * output amount makes the parser raise `ValueError` instead of giving
   * the empty result, whatever the quantity.
   */
  lemma WordMemoParseRaises(account: string, to: string, quantity: string,
                            word: string, symbol: string, rest: string)
    requires |word| > 0 && NoSpace(word) && forall k :: 0 <= k < |word| ==> !IsDigit(word[k])
    requires IsAscii(word) && !IsSpecialSpelling(word)
    requires |symbol| > 0 && NoSpace(symbol)
    requires !Occurs(":", word + " " + symbol) && !Occurs(QuantityMarker, word + " " + symbol)
    ensures ParsePriceFromResult(SwapReceipt(account, to, quantity,
              SwapMemoPrefix + " " + (word + " " + symbol) + ":" + rest)) == Error(ValueError)
  {
    var memo := SwapMemoPrefix + " " + (word + " " + symbol) + ":" + rest;
    WordMemoRaises(word, symbol, rest);
    SwapReceiptOutcome(account, to, quantity, memo);
  }
}

=== FILE: memo_proofs.dfy ===
/**
 * Properties of reading amounts and prices out of a swap payout: the
 * output quantity in the memo, the amounts in the quantity strings, and
 * the guarded price division.
 */
module MemoProofs {
  import opened Wrappers
  import opened PyStrings
  import opened PyValues
  import opened PyFloat
  import opened BotService

  /** The memo text up to (not including) the quantity marker. */
  const MemoLead: string := "flon swap "

  lemma MemoPrefixParts()
    ensures SwapMemoPrefix == MemoLead + QuantityMarker
    ensures 'b' !in MemoLead
  {
  }

  /**
   * A memo with the swap prefix always has the quantity marker, so the
   * output quantity step never fails on the index.
   */
  lemma PrefixedMemoHasQuantity(memo: string)
    requires SwapMemoPrefix <= memo
    ensures OutputQuantity(memo).Ok?
  {
    MemoPrefixParts();
    assert OccursAt(memo, QuantityMarker, |MemoLead|) by {
      assert memo[|MemoLead|..|MemoLead| + 2] == SwapMemoPrefix[|MemoLead|..];
    }
  }

  /** `" " + x` loses exactly its leading blank to `lstrip` when `x` does not start with whitespace. */
  lemma TrimStartBlank(x: string)
    requires |x| == 0 || !IsSpace(x[0])
    ensures TrimStart(" " + x) == x
  {
    assert (" " + x)[1..] == x;
  }

  /** `rstrip` never reaches past a non-whitespace character. */
  lemma TrimEndKeeps(w: string, n: nat)
    requires n < |w| && !IsSpace(w[n])
    ensures |TrimEnd(w)| > n
  {
    var r := TrimEnd(w);
    forall k | |r| <= k < |w|
      ensures IsSpace(w[k])
    {
      assert w[|r|..][k - |r|] == w[k];
    }
  }

  /** Stripping `" " + x` is right-stripping `x` when `x` does not start with whitespace. */
  lemma StripBlank(x: string)
    requires |x| == 0 || !IsSpace(x[0])
    ensures Strip(" " + x) == TrimEnd(x)
  {
    TrimStartBlank(x);
  }

  /** Right-stripping `q + ":" + z` leaves `q + ":"` followed by part of `z`. */
  lemma TrimEndKeepsQuantity(q: string, z: string) returns (z': string)
    ensures TrimEnd(q + ":" + z) == q + ":" + z'
  {
    var x := q + ":" + z;
    assert x[|q|] == ':';
    TrimEndKeeps(x, |q|);
    var r := TrimEnd(x);
    z' := r[|q| + 1..];
    assert r[..|q| + 1] == x[..|q| + 1] == q + ":";
    assert r == r[..|q| + 1] + z';
  }

  /** Stripping `" " + q + ":" + z` leaves `q + ":"` followed by part of `z`. */
  lemma StripKeepsQuantity(q: string, z: string) returns (z': string)
    requires |q| == 0 || !IsSpace(q[0])
    ensures Strip(" " + q + ":" + z) == q + ":" + z'
  {
    var x := q + ":" + z;
    assert " " + q + ":" + z == " " + x;
    assert x[0] == (if |q| == 0 then ':' else q[0]);
    StripBlank(x);
    z' := TrimEndKeepsQuantity(q, z);
  }

  /** No quantity marker starts before the colon that ends the quantity in `" " + q + ":" + rest`. */
  lemma NoMarkerInQuantity(q: string, rest: string)
    requires !Occurs(QuantityMarker, q)
    ensures forall m: nat :: m < |q| + 2 ==> !OccursAt(" " + q + ":" + rest, QuantityMarker, m)
  {
    var b := " " + q + ":" + rest;
    assert b[0] == ' ' && b[|q| + 1] == ':';
    forall m: nat | 1 <= m && m + 1 <= |q|
      ensures !OccursAt(b, QuantityMarker, m)
    {
      assert b[m..m + 2] == q[m - 1..m + 1];
      assert !OccursAt(q, QuantityMarker, m - 1);
    }
  }

  /** A swap memo splits at the marker that ends its prefix. */
  lemma MemoSplitsAfterPrefix(b: string)
    ensures Split(SwapMemoPrefix + b, QuantityMarker) == [MemoLead] + Split(b, QuantityMarker)
  {
    MemoPrefixParts();
    var memo := MemoLead + QuantityMarker + b;
    forall m: nat | m < |MemoLead|
      ensures !OccursAt(memo, QuantityMarker, m)
    {
      assert memo[m] == MemoLead[m];
      assert MemoLead[m] in MemoLead;
    }
    SplitAtFirst(MemoLead, QuantityMarker, b);
  }

  /** The second piece of a swap memo is the first piece of what follows its prefix. */
  lemma MemoSecondPieceIsHead(b: string)
    ensures |Split(SwapMemoPrefix + b, QuantityMarker)| >= 2
    ensures Split(SwapMemoPrefix + b, QuantityMarker)[1] == Split(b, QuantityMarker)[0]
  {
    MemoSplitsAfterPrefix(b);
  }

  /** The first piece of `" " + q + ":" + rest` at the marker starts with `" " + q + ":"`. */
  lemma QuantityHeadPiece(q: string, rest: string) returns (z: string)
    requires !Occurs(QuantityMarker, q)
    ensures Split(" " + q + ":" + rest, QuantityMarker)[0] == " " + q + ":" + z
  {
    var b := " " + q + ":" + rest;
    var piece := Split(b, QuantityMarker)[0];
    NoMarkerInQuantity(q, rest);
    SplitHeadIsPrefix(b, QuantityMarker, |q| + 2);
    z := b[|q| + 2..|piece|];
    assert piece == b[..|q| + 2] + z;
  }

  /** The piece after the first quantity marker of a swap memo starts with `" " + q + ":"`. */
  lemma MemoSecondPiece(q: string, rest: string) returns (z: string)
    requires !Occurs(QuantityMarker, q)
    ensures |Split(SwapMemoPrefix + " " + q + ":" + rest, QuantityMarker)| >= 2
    ensures Split(SwapMemoPrefix + " " + q + ":" + rest, QuantityMarker)[1] == " " + q + ":" + z
  {
    var b := " " + q + ":" + rest;
    assert SwapMemoPrefix + " " + q + ":" + rest == SwapMemoPrefix + b;
    MemoSecondPieceIsHead(b);
    z := QuantityHeadPiece(q, rest);
  }

  /**
   * Round trip for the memo the swap contract writes: from
   * `"flon swap by " + q + ":" + rest`, the output quantity is `q` again,
   * whatever follows the colon, provided `q` holds no colon and no
   * quantity marker and has no surrounding whitespace.
   */
  lemma OutputQuantityRoundTrip(q: string, rest: string)
    requires !Occurs(":", q) && !Occurs(QuantityMarker, q)
    requires Strip(q) == q
    ensures OutputQuantity(SwapMemoPrefix + " " + q + ":" + rest) == Ok(q)
  {
    var z := MemoSecondPiece(q, rest);
    assert |q| == 0 || !IsSpace(q[0]);
    var z' := StripKeepsQuantity(q, z);
    SplitHeadBeforeSeparator(q, ":", z');
  }

  /** `str(whole) + "." + frac`: a decimal numeral. */
  function DecimalText(whole: nat, frac: string): string
    requires AllDigits(frac)
  {
    NatToString(whole) + "." + frac
  }

  /** The value the numeral `DecimalText(whole, frac)` denotes. */
  function DecimalValue(whole: nat, frac: string): real
    requires AllDigits(frac)
  {
    Decimal(NatToString(whole), frac)
  }

  lemma DecimalTextShape(whole: nat, frac: string)
    requires AllDigits(frac)
    ensures |DecimalText(whole, frac)| > 0 && NoSpace(DecimalText(whole, frac))
    ensures IsDigit(DecimalText(whole, frac)[0])
    ensures forall k :: 0 <= k < |DecimalText(whole, frac)| ==> DecimalText(whole, frac)[k] != 'b' && DecimalText(whole, frac)[k] != ':'
  {
    var d := NatToString(whole);
    var t := DecimalText(whole, frac);
    assert forall k :: 0 <= k < |t| ==> t[k] == '.' || IsDigit(t[k]) by {
      forall k | 0 <= k < |t|
        ensures t[k] == '.' || IsDigit(t[k])
      {
        if k < |d| {
          assert t[k] == d[k];
        } else if k > |d| {
          assert t[k] == frac[k - |d| - 1];
        }
      }
    }
    assert t[0] == d[0];
  }

  /**
   * Round trip for a quantity string `"<amount> <symbol>"`: its amount is
   * the decimal value written before the blank, whatever the symbol.
   */
  lemma AmountRoundTrip(whole: nat, frac: string, symbol: string)
    requires AllDigits(frac)
    ensures Amount(DecimalText(whole, frac) + " " + symbol) == Ok(DecimalValue(whole, frac))
  {
    DecimalTextShape(whole, frac);
    var t := DecimalText(whole, frac);
    assert t + " " + symbol == t + (" " + symbol);
    FirstTokenBeforeSpace(t, " " + symbol);
    DecimalRoundTrip(whole, frac);
  }

  /** A quantity as the chain writes it: an amount, a blank and a token symbol. */
  function QuantityText(whole: nat, frac: string, symbol: string): string
    requires AllDigits(frac)
  {
    DecimalText(whole, frac) + " " + symbol
  }

  /** A pattern cannot start inside a prefix that lacks its first character. */
  lemma NotOccursPastFreePrefix(x: string, y: string, pat: string)
    requires |pat| > 0 && forall k :: 0 <= k < |x| ==> x[k] != pat[0]
    requires !Occurs(pat, y)
    ensures !Occurs(pat, x + y)
  {
    var s := x + y;
    forall m: nat | m <= |s|
      ensures !OccursAt(s, pat, m)
    {
      if m + |pat| <= |s| {
        if m < |x| {
          assert s[m..m + |pat|][0] == x[m];
        } else {
          assert s[m..m + |pat|] == y[m - |x|..m - |x| + |pat|];
          assert !OccursAt(y, pat, m - |x|);
        }
      }
    }
  }

  /**
   * A quantity whose symbol holds no blank, colon or "by" is already
   * stripped and holds neither separator of the memo.
   */
  lemma QuantityTextClean(whole: nat, frac: string, symbol: string)
    requires AllDigits(frac)
    requires |symbol| > 0 && NoSpace(symbol)
    requires !Occurs(":", symbol) && !Occurs(QuantityMarker, symbol)
    ensures !Occurs(":", QuantityText(whole, frac, symbol))
    ensures !Occurs(QuantityMarker, QuantityText(whole, frac, symbol))
    ensures Strip(QuantityText(whole, frac, symbol)) == QuantityText(whole, frac, symbol)
  {
    DecimalTextShape(whole, frac);
    var t := DecimalText(whole, frac);
    var x := t + " ";
    assert forall k :: 0 <= k < |x| ==> x[k] != 'b' && x[k] != ':' by {
      forall k | 0 <= k < |x|
        ensures x[k] != 'b' && x[k] != ':'
      {
        if k < |t| {
          assert x[k] == t[k];
        }
      }
    }
    NotOccursPastFreePrefix(x, symbol, ":");
    NotOccursPastFreePrefix(x, symbol, QuantityMarker);
    var q := x + symbol;
    assert q[0] == t[0] && q[|q| - 1] == symbol[|symbol| - 1];
  }

  /** The quantity read from `"flon swap by <quantity>:<rest>"` is the quantity written. */
  lemma MemoQuantityRoundTrip(whole: nat, frac: string, symbol: string, rest: string)
    requires AllDigits(frac)
    requires |symbol| > 0 && NoSpace(symbol)
    requires !Occurs(":", symbol) && !Occurs(QuantityMarker, symbol)
    ensures OutputQuantity(SwapMemoPrefix + " " + QuantityText(whole, frac, symbol) + ":" + rest)
            == Ok(QuantityText(whole, frac, symbol))
  {
    QuantityTextClean(whole, frac, symbol);
    OutputQuantityRoundTrip(QuantityText(whole, frac, symbol), rest);
  }

  /**
   * Round trip for a whole swap memo: the amount read from
   * `"flon swap by <amount> <symbol>:<rest>"` is the amount written.
   */
  lemma MemoAmountRoundTrip(whole: nat, frac: string, symbol: string, rest: string)
    requires AllDigits(frac)
    requires |symbol| > 0 && NoSpace(symbol)
    requires !Occurs(":", symbol) && !Occurs(QuantityMarker, symbol)
    ensures SwapMemoPrefix <= SwapMemoPrefix + " " + QuantityText(whole, frac, symbol) + ":" + rest
    ensures MemoAmount(SwapMemoPrefix + " " + QuantityText(whole, frac, symbol) + ":" + rest)
            == Ok(DecimalValue(whole, frac))
  {
    var memo := SwapMemoPrefix + " " + QuantityText(whole, frac, symbol) + ":" + rest;
    assert memo == SwapMemoPrefix + (" " + QuantityText(whole, frac, symbol) + ":" + rest);
    MemoQuantityRoundTrip(whole, frac, symbol, rest);
    AmountRoundTrip(whole, frac, symbol);
  }

  /** A positive factor cancels. */
  lemma CancelPositive(r: real, c: real)
    requires c > 0.0 && r * c == c
    ensures r == 1.0
  {
    assert (r - 1.0) * c == 0.0;
  }

  /**
   * The two prices are reciprocal when both amounts are positive; a
   * non-positive divisor gives 0 instead of a division by zero.
   */
  lemma RatiosReciprocal(inAmount: real, outAmount: real)
    ensures inAmount > 0.0 && outAmount > 0.0 ==> Ratio(outAmount, inAmount) * Ratio(inAmount, outAmount) == 1.0
    ensures Ratio(outAmount, inAmount) > 0.0 <==> inAmount > 0.0 && outAmount > 0.0
    ensures Ratio(inAmount, outAmount) > 0.0 <==> inAmount > 0.0 && outAmount > 0.0
  {
    if inAmount > 0.0 && outAmount > 0.0 {
      var p := Ratio(outAmount, inAmount);
      var q := Ratio(inAmount, outAmount);
      var x := p * inAmount;
      var y := q * outAmount;
      assert x == outAmount && y == inAmount;
      var c := inAmount * outAmount;
      assert x * y == c;
      assert (p * q) * c == x * y;
      CancelPositive(p * q, c);
    }
  }
}

=== FILE: py_float.dfy ===
/**
 * Python's `float(token)` on a whitespace-free token, over exact reals:
 * an optional sign, decimal digits with an optional fractional part, and an
 * optional decimal exponent. Any other token raises `ValueError`.
 */
module PyFloat {
  import opened PyValues
  import opened PyStrings

  predicate IsDigit(c: char) {
    '0' <= c <= '9'
  }

  predicate AllDigits(s: string) {
    forall k :: 0 <= k < |s| ==> IsDigit(s[k])
  }

  function DigitValue(c: char): nat
    requires IsDigit(c)
  {
    (c as int) - ('0' as int)
  }

  /** The number a string of decimal digits denotes (0 for the empty string). */
  function DigitsValue(ds: string): nat
    requires AllDigits(ds)
  {
    if |ds| == 0 then 0 else DigitsValue(ds[..|ds| - 1]) * 10 + DigitValue(ds[|ds| - 1])
  }

  function Pow10(n: nat): (p: nat)
    ensures p >= 1
  {
    if n == 0 then 1 else 10 * Pow10(n - 1)
  }

  /** Length of the leading run of decimal digits. */
  function DigitRun(s: string): (n: nat)
    ensures n <= |s| && AllDigits(s[..n])
    ensures n < |s| ==> !IsDigit(s[n])
  {
    if |s| == 0 || !IsDigit(s[0]) then 0
    else
      var n := 1 + DigitRun(s[1..]);
      assert s[..n] == [s[0]] + s[1..][..n - 1];
      n
  }

  /** The value of the numeral `intDigits.fracDigits`. */
  function Decimal(intDigits: string, fracDigits: string): real
    requires AllDigits(intDigits) && AllDigits(fracDigits)
  {
    DigitsValue(intDigits) as real + DigitsValue(fracDigits) as real / Pow10(|fracDigits|) as real
  }

  /** `m` times ten to the power `e`. */
  function Scale(m: real, e: int): real
  {
    if e >= 0 then m * Pow10(e) as real else m / Pow10(-e) as real
  }

  /** The exponent after `e`/`E`: an optional sign and at least one digit. */
  function ParseExponent(s: string): (r: Result<int>)
    ensures r.Err? ==> r.error == ValueError
  {
    var signed := |s| > 0 && (s[0] == '+' || s[0] == '-');
    var body := if signed then s[1..] else s;
    if |body| > 0 && AllDigits(body) then
      Ok(if signed && s[0] == '-' then -(DigitsValue(body) as int) else DigitsValue(body))
    else Err(ValueError)
  }

  /** An unsigned decimal: digits, an optional `.` and digits (at least one digit in all), an optional exponent. */
  function ParseUnsigned(s: string): (r: Result<real>)
    ensures r.Err? ==> r.error == ValueError
    ensures AllDigits(s) && |s| > 0 ==> r == Ok(DigitsValue(s) as real)
  {
    var ip := DigitRun(s);
    var rest := s[ip..];
    var hasDot := |rest| > 0 && rest[0] == '.';
    var afterDot := if hasDot then rest[1..] else rest;
    var fp := if hasDot then DigitRun(afterDot) else 0;
    var tail := afterDot[fp..];
    var mantissa := Decimal(s[..ip], afterDot[..fp]);
    assert AllDigits(s) ==> ip == |s| && s[..ip] == s;
    if ip + fp == 0 then Err(ValueError)
    else if |tail| == 0 then Ok(mantissa)
    else if tail[0] == 'e' || tail[0] == 'E' then
      var e :- ParseExponent(tail[1..]);
      Ok(Scale(mantissa, e))
    else Err(ValueError)
  }

  /**
   * Python's `float(token)`. The only exception it raises on a string is
   * `ValueError`; a plain (optionally signed) digit string denotes its
   * decimal value.
   */
  function ParseFloat(s: string): (r: Result<real>)
    ensures r.Err? ==> r.error == ValueError
    ensures AllDigits(s) && |s| > 0 ==> r == Ok(DigitsValue(s) as real)
    ensures |s| > 1 && s[0] == '-' && AllDigits(s[1..]) ==> r == Ok(-(DigitsValue(s[1..]) as real))
  {
    if |s| > 0 && (s[0] == '+' || s[0] == '-') then
      var m :- ParseUnsigned(s[1..]);
      Ok(if s[0] == '-' then -m else m)
    else ParseUnsigned(s)
  }

  /** ASCII upper case to lower case; every other character is kept. */
  function LowerAscii(c: char): (l: char)
    ensures 'A' <= c <= 'Z' ==> l as int == c as int + 32
    ensures !('A' <= c <= 'Z') ==> l == c
  {
    if 'A' <= c <= 'Z' then (c as int + 32) as char else c
  }

  predicate IsAscii(s: string) {
    forall k :: 0 <= k < |s| ==> s[k] < '\U{80}'
  }

  /**
   * The spellings of infinity and NaN that Python's `float` accepts: `inf`,
   * `infinity` or `nan` in any case, with an optional sign. They carry no
   * digit but do not raise; `ParseFloat` does not model them.
   */
  predicate IsSpecialSpelling(s: string) {
    var u := if |s| > 0 && (s[0] == '+' || s[0] == '-') then s[1..] else s;
    var l := seq(|u|, k requires 0 <= k < |u| => LowerAscii(u[k]));
    l == "inf" || l == "infinity" || l == "nan"
  }

  /**
   * An ASCII token without a single decimal digit is not a number, unless
   * it spells infinity or NaN. A token holds no whitespace (`float` would
   * strip it), and Python also reads non-ASCII decimal digits, hence the
   * restriction to ASCII.
   */
  lemma NoDigitNoNumber(s: string)
    requires IsAscii(s) && !IsSpecialSpelling(s) && NoSpace(s)
    requires forall k :: 0 <= k < |s| ==> !IsDigit(s[k])
    ensures ParseFloat(s) == Err(ValueError)
  {
    var u := if |s| > 0 && (s[0] == '+' || s[0] == '-') then s[1..] else s;
    assert forall k :: 0 <= k < |u| ==> !IsDigit(u[k]);
    assert |u| == 0 || !IsDigit(u[0]);
    var ip := DigitRun(u);
    var rest := u[ip..];
    var afterDot := if |rest| > 0 && rest[0] == '.' then rest[1..] else rest;
    assert forall k :: 0 <= k < |afterDot| ==> !IsDigit(afterDot[k]);
    assert |afterDot| == 0 || !IsDigit(afterDot[0]);
  }

  /** The decimal digits of `n`, without leading zeros (Python's `str(n)`). */
  function NatToString(n: nat): (ds: string)
    ensures |ds| > 0 && AllDigits(ds)
    ensures DigitsValue(ds) == n
  {
    var c := ('0' as int + n % 10) as char;
    if n < 10 then
      assert DigitsValue([c]) == DigitsValue([c][..0]) * 10 + DigitValue(c);
      [c]
    else
      var prefix := NatToString(n / 10);
      assert (prefix + [c])[..|prefix|] == prefix;
      prefix + [c]
  }

  /** A digit run followed by a non-digit (or nothing) is exactly as long as the run. */
  lemma DigitRunOfDigitsThen(d: string, t: string)
    requires AllDigits(d)
    requires |t| == 0 || !IsDigit(t[0])
    ensures DigitRun(d + t) == |d|
  {
    assert forall k :: 0 <= k < |d| ==> (d + t)[k] == d[k];
    assert |t| > 0 ==> (d + t)[|d|] == t[0];
  }

  /** An unsigned numeral `d.frac` denotes its whole part plus its scaled fraction. */
  lemma UnsignedDecimal(d: string, frac: string)
    requires |d| > 0 && AllDigits(d) && AllDigits(frac)
    ensures ParseUnsigned(d + "." + frac) == Ok(Decimal(d, frac))
  {
    var s := d + "." + frac;
    DigitRunOfDigitsThen(d, "." + frac);
    assert s == d + ("." + frac);
    assert s[|d|..] == "." + frac;
    assert s[..|d|] == d;
    assert ("." + frac)[1..] == frac;
    DigitRunOfDigitsThen(frac, "");
    assert frac + "" == frac;
    assert frac[..|frac|] == frac;
    assert frac[|frac|..] == [];
  }

  /** The numeral `str(whole) + "." + frac` denotes `whole` plus `frac` scaled down. */
  lemma DecimalOfWhole(whole: nat, frac: string)
    requires AllDigits(frac)
    ensures Decimal(NatToString(whole), frac) == whole as real + DigitsValue(frac) as real / Pow10(|frac|) as real
  {
  }

  /**
   * Round trip: writing a whole part with `str()`, a dot and fractional
   * digits, then reading it back with `float()`, gives the decimal value.
   */
  lemma DecimalRoundTrip(whole: nat, frac: string)
    requires AllDigits(frac)
    ensures ParseFloat(NatToString(whole) + "." + frac) == Ok(Decimal(NatToString(whole), frac))
  {
    var d := NatToString(whole);
    assert (d + "." + frac)[0] == d[0];
    UnsignedDecimal(d, frac);
  }
}

=== FILE: py_strings.dfy ===
/**
 * The Python `str` operations that the trade parser relies on: substring
 * search (`in`, `find`), `split(sep)`, `split()` and `strip()`.
 * Strings are sequences of Unicode scalar values, as Python's `str` is a
 * sequence of code points.
 */
module PyStrings {
  import opened Wrappers

  /** `pat` occurs in `s` starting at position `k`. */
  predicate OccursAt(s: string, pat: string, k: nat) {
    k + |pat| <= |s| && s[k..k + |pat|] == pat
  }

  /** Python's `pat in s` for two strings. */
  predicate Occurs(pat: string, s: string) {
    exists k | 0 <= k <= |s| :: OccursAt(s, pat, k)
  }

  /** The first position at or after `i` where `pat` occurs in `s`. */
  function FindFrom(s: string, pat: string, i: nat): (r: Option<nat>)
    decreases |s| - i
    ensures r.Some? ==> i <= r.value && OccursAt(s, pat, r.value)
    ensures r.Some? ==> forall m :: i <= m < r.value ==> !OccursAt(s, pat, m)
    ensures r.None? ==> forall m :: i <= m ==> !OccursAt(s, pat, m)
  {
    if OccursAt(s, pat, i) then Some(i)
    else if i >= |s| then None
    else FindFrom(s, pat, i + 1)
  }

  /** Python's `s.find(pat)`, with `None` for -1: the leftmost occurrence. */
  function Find(s: string, pat: string): (r: Option<nat>)
    ensures r.Some? ==> OccursAt(s, pat, r.value) && forall m: nat :: m < r.value ==> !OccursAt(s, pat, m)
    ensures r.None? ==> forall m: nat :: !OccursAt(s, pat, m)
  {
    FindFrom(s, pat, 0)
  }

  /** `find` succeeds exactly when `pat in s` holds. */
  lemma FindIffOccurs(s: string, pat: string)
    ensures Find(s, pat).Some? <==> Occurs(pat, s)
  {
    if Find(s, pat).Some? {
      assert OccursAt(s, pat, Find(s, pat).value);
    }
  }

  /** Glues `parts` back together with `sep` between neighbours. */
  function Join(parts: seq<string>, sep: string): string
  {
    if |parts| == 0 then ""
    else if |parts| == 1 then parts[0]
    else parts[0] + sep + Join(parts[1..], sep)
  }

  /** An occurrence inside a prefix of `s` is an occurrence in `s`. */
  lemma OccursInPrefix(s: string, pat: string, k: nat, m: nat)
    requires k <= |s|
    requires OccursAt(s[..k], pat, m)
    ensures OccursAt(s, pat, m)
  {
    assert s[..k][m..m + |pat|] == s[m..m + |pat|];
  }

  /** The text before the first occurrence of `pat` holds no occurrence of it. */
  lemma NoOccurrenceBeforeFirst(s: string, pat: string, k: nat)
    requires |pat| > 0
    requires k <= |s|
    requires forall m: nat :: m < k ==> !OccursAt(s, pat, m)
    ensures !Occurs(pat, s[..k])
  {
    forall m | 0 <= m <= k && OccursAt(s[..k], pat, m)
      ensures false
    {
      OccursInPrefix(s, pat, k, m);
    }
  }

  /** No piece holds `sep`. */
  predicate PiecesFree(parts: seq<string>, sep: string)
  {
    forall j :: 0 <= j < |parts| ==> !Occurs(sep, parts[j])
  }

  lemma PiecesFreeCons(a: string, ps: seq<string>, sep: string)
    requires !Occurs(sep, a) && PiecesFree(ps, sep)
    ensures PiecesFree([a] + ps, sep)
  {
    assert forall j :: 1 <= j < |[a] + ps| ==> ([a] + ps)[j] == ps[j - 1];
  }

  /**
   * Every cut is at the leftmost occurrence of `sep` in the text still to
   * be split. For a separator that can overlap itself (`"aa"` in `"aaa"`)
   * this is what tells Python's pieces from other ways of cutting.
   */
  predicate LeftmostCuts(parts: seq<string>, sep: string)
    decreases |parts|
  {
    |parts| <= 1 || (Find(Join(parts, sep), sep) == Some(|parts[0]|) && LeftmostCuts(parts[1..], sep))
  }

  /** Joining a leading piece onto at least one more. */
  lemma JoinCons(a: string, ps: seq<string>, sep: string)
    requires |ps| >= 1
    ensures Join([a] + ps, sep) == a + sep + Join(ps, sep)
  {
    assert ([a] + ps)[1..] == ps;
  }

  /** A string is the text before an occurrence, the occurrence, and the text after it. */
  lemma Reassemble(s: string, pat: string, k: nat)
    requires OccursAt(s, pat, k)
    ensures s == s[..k] + pat + s[k + |pat|..]
  {
    assert s == s[..k] + s[k..k + |pat|] + s[k + |pat|..];
  }

  /**
   * Python's `s.split(sep)` for a non-empty separator: cut at each
   * occurrence of `sep`, scanning left to right. The pieces, joined back
   * with `sep`, give `s`, none of them holds `sep`, and every cut is at
   * the leftmost occurrence left; `SplitUnique` shows these fix the pieces.
   */
  function Split(s: string, sep: string): (parts: seq<string>)
    requires |sep| > 0
    decreases |s|
    ensures |parts| >= 1
    ensures Join(parts, sep) == s
    ensures PiecesFree(parts, sep)
    ensures LeftmostCuts(parts, sep)
  {
    match Find(s, sep)
    case None =>
      FindIffOccurs(s, sep);
      [s]
    case Some(k) =>
      var rest := Split(s[k + |sep|..], sep);
      JoinCons(s[..k], rest, sep);
      Reassemble(s, sep, k);
      NoOccurrenceBeforeFirst(s, sep, k);
      PiecesFreeCons(s[..k], rest, sep);
      assert ([s[..k]] + rest)[1..] == rest;
      [s[..k]] + rest
  }

  /** Any pieces that join back to `s`, hold no `sep` and are cut leftmost are `s.split(sep)`. */
  lemma {:induction false} SplitUnique(s: string, sep: string, parts: seq<string>)
    requires |sep| > 0 && |parts| >= 1
    requires Join(parts, sep) == s && PiecesFree(parts, sep) && LeftmostCuts(parts, sep)
    ensures parts == Split(s, sep)
    decreases |parts|
  {
    if |parts| == 1 {
      assert !Occurs(sep, parts[0]);
      FindIffOccurs(s, sep);
    } else {
      var k := |parts[0]|;
      var tail := Join(parts[1..], sep);
      assert s == parts[0] + sep + tail;
      assert s[..k] == parts[0];
      assert s[k + |sep|..] == tail;
      assert PiecesFree(parts[1..], sep) by {
        assert forall j :: 0 <= j < |parts[1..]| ==> parts[1..][j] == parts[j + 1];
      }
      SplitUnique(tail, sep, parts[1..]);
      assert parts == [parts[0]] + parts[1..];
    }
  }

  /** There is a second piece exactly when `sep` occurs. */
  lemma SplitHasSecondPiece(s: string, sep: string)
    requires |sep| > 0
    ensures |Split(s, sep)| >= 2 <==> Occurs(sep, s)
  {
    FindIffOccurs(s, sep);
  }

  /** Python's `str.isspace()` for a single character. */
  predicate IsSpace(c: char) {
    c == ' ' || c == '\t' || c == '\n' || c == '\r' || c == '\U{0B}' || c == '\U{0C}'
    || ('\U{1C}' <= c <= '\U{1F}') || c == '\U{85}' || c == '\U{A0}' || c == '\U{1680}'
    || ('\U{2000}' <= c <= '\U{200A}') || c == '\U{2028}' || c == '\U{2029}'
    || c == '\U{202F}' || c == '\U{205F}' || c == '\U{3000}'
  }

  predicate AllSpace(s: string) {
    forall k :: 0 <= k < |s| ==> IsSpace(s[k])
  }

  predicate NoSpace(s: string) {
    forall k :: 0 <= k < |s| ==> !IsSpace(s[k])
  }

  /** Length of the leading run of whitespace characters. */
  function SpaceRun(s: string): (n: nat)
    ensures n <= |s|
    ensures AllSpace(s[..n])
    ensures n < |s| ==> !IsSpace(s[n])
  {
    if |s| == 0 || !IsSpace(s[0]) then 0
    else
      var n := 1 + SpaceRun(s[1..]);
      assert s[..n] == [s[0]] + s[1..][..n - 1];
      n
  }

  /** Python's `s.lstrip()`. */
  function TrimStart(s: string): (r: string)
    ensures |r| <= |s| && r == s[|s| - |r|..]
    ensures AllSpace(s[..|s| - |r|])
    ensures |r| > 0 ==> !IsSpace(r[0])
    ensures |r| == 0 <==> AllSpace(s)
  {
    var n := SpaceRun(s);
    assert n == |s| ==> s[..n] == s;
    s[n..]
  }

  /** Python's `s.rstrip()`. */
  function TrimEnd(s: string): (r: string)
    ensures |r| <= |s| && r == s[..|r|]
    ensures AllSpace(s[|r|..])
    ensures |r| > 0 ==> !IsSpace(r[|r| - 1])
  {
    if |s| > 0 && IsSpace(s[|s| - 1]) then
      var r := TrimEnd(s[..|s| - 1]);
      assert s[..|s| - 1][|r|..] == s[|r|..|s| - 1];
      r
    else s
  }

  /**
   * Python's `s.strip()`: the result neither starts nor ends with
   * whitespace, is empty exactly when `s` is all whitespace, and is `s`
   * itself when there is nothing to strip. It is a slice of `s` with only
   * whitespace cut off on either side.
   */
  function Strip(s: string): (r: string)
    ensures |r| > 0 ==> !IsSpace(r[0]) && !IsSpace(r[|r| - 1])
    ensures |r| == 0 <==> AllSpace(s)
    ensures |s| > 0 && !IsSpace(s[0]) && !IsSpace(s[|s| - 1]) ==> r == s
  {
    var t := TrimStart(s);
    var r := TrimEnd(t);
    assert |r| > 0 ==> r[0] == t[0];
    r
  }

  /**
   * `Strip(s)` is `s` with only whitespace cut off: it is the slice of `s`
   * starting at the returned index, and all that lies before and after it
   * is whitespace.
   */
  lemma StripIsSlice(s: string) returns (i: nat)
    ensures i + |Strip(s)| <= |s| && Strip(s) == s[i..i + |Strip(s)|]
    ensures AllSpace(s[..i]) && AllSpace(s[i + |Strip(s)|..])
  {
    var t := TrimStart(s);
    var r := TrimEnd(t);
    i := |s| - |t|;
    assert s[i + |r|..] == t[|r|..];
    assert r == s[i..i + |r|];
  }

  /** Length of the leading run of non-whitespace characters. */
  function TokenLength(t: string): (n: nat)
    ensures n <= |t|
    ensures NoSpace(t[..n])
    ensures n < |t| ==> IsSpace(t[n])
  {
    if |t| == 0 || IsSpace(t[0]) then 0
    else
      var n := 1 + TokenLength(t[1..]);
      assert t[..n] == [t[0]] + t[1..][..n - 1];
      n
  }

  /**
   * Python's `s.split()` with no argument: the maximal runs of
   * non-whitespace characters, in order. The first token is the leading
   * run of non-whitespace once leading whitespace is cut off.
   */
  function SplitWhitespace(s: string): (tokens: seq<string>)
    decreases |s|
    ensures AllTokens(tokens)
    ensures |tokens| == 0 <==> AllSpace(s)
    ensures |tokens| > 0 ==> tokens[0] == TrimStart(s)[..TokenLength(TrimStart(s))]
  {
    var t := TrimStart(s);
    if |t| == 0 then []
    else
      var n := TokenLength(t);
      assert n > 0 by {
        assert !IsSpace(t[0]);
      }
      var rest := SplitWhitespace(t[n..]);
      TokensCons(t[..n], rest);
      [t[..n]] + rest
  }

  /** Whitespace-free, non-empty strings, one token each. */
  predicate AllTokens(tokens: seq<string>)
  {
    forall k :: 0 <= k < |tokens| ==> |tokens[k]| > 0 && NoSpace(tokens[k])
  }

  lemma TokensCons(head: string, rest: seq<string>)
    requires |head| > 0 && NoSpace(head) && AllTokens(rest)
    ensures AllTokens([head] + rest)
  {
    assert forall k :: 1 <= k < |[head] + rest| ==> ([head] + rest)[k] == rest[k - 1];
  }

  /** A run of non-whitespace followed by whitespace (or nothing) is a whole token. */
  lemma TokenLengthOf(t: string, u: string)
    requires NoSpace(t)
    requires |u| == 0 || IsSpace(u[0])
    ensures TokenLength(t + u) == |t|
  {
    assert forall k :: 0 <= k < |t| ==> (t + u)[k] == t[k];
    assert |u| > 0 ==> (t + u)[|t|] == u[0];
  }

  /** The first token of `t + u` is `t` when `t` is a token and `u` starts with whitespace. */
  lemma FirstTokenBeforeSpace(t: string, u: string)
    requires |t| > 0 && NoSpace(t)
    requires |u| == 0 || IsSpace(u[0])
    ensures |SplitWhitespace(t + u)| > 0 && SplitWhitespace(t + u)[0] == t
  {
    var s := t + u;
    assert s[0] == t[0];
    TokenLengthOf(t, u);
    assert s[..|t|] == t;
  }

  /**
   * When `sep` does not start anywhere inside `a`, splitting
   * `a + sep + b` yields `a` and then the pieces of `b`.
   */
  lemma SplitAtFirst(a: string, sep: string, b: string)
    requires |sep| > 0
    requires forall m: nat :: m < |a| ==> !OccursAt(a + sep + b, sep, m)
    ensures Split(a + sep + b, sep) == [a] + Split(b, sep)
  {
    var s := a + sep + b;
    assert OccursAt(s, sep, |a|) by {
      assert s[|a|..|a| + |sep|] == sep;
    }
    assert Find(s, sep) == Some(|a|);
    assert s[..|a|] == a;
    assert s[|a| + |sep|..] == b;
  }

  /**
   * The first piece of a split is a prefix of the string, and it reaches at
   * least as far as the first possible position of `sep`.
   */
  lemma SplitHeadIsPrefix(s: string, sep: string, n: nat)
    requires |sep| > 0
    requires forall m: nat :: m < n ==> !OccursAt(s, sep, m)
    requires n <= |s|
    ensures n <= |Split(s, sep)[0]|
    ensures Split(s, sep)[0] == s[..|Split(s, sep)[0]|]
  {
    match Find(s, sep)
    case None =>
      assert s[..|s|] == s;
    case Some(k) =>
  }

  /** When `y` holds no `sep` character, splitting `y + sep + z` at `sep` starts with `y`. */
  lemma SplitHeadBeforeSeparator(y: string, sep: string, z: string)
    requires |sep| == 1
    requires !Occurs(sep, y)
    ensures Split(y + sep + z, sep)[0] == y
  {
    var s := y + sep + z;
    forall m: nat | m < |y|
      ensures !OccursAt(s, sep, m)
    {
      assert s[m..m + 1] == y[m..m + 1];
      assert !OccursAt(y, sep, m);
    }
    SplitAtFirst(y, sep, z);
  }
}

=== FILE: py_values.dfy ===
/**
 * The decoded JSON receipt as the Python values it becomes, and the Python
 * built-in operations the trade parser applies to them, each with the
 * exception it raises when the value has the wrong shape.
 */
module PyValues {
  import opened Wrappers
  import opened PyStrings

  /**
   * A value produced by JSON decoding. A `dict` keeps its entries in
   * insertion order, because iterating a `dict` yields its keys in that
   * order; JSON object keys are always strings. A decoded `dict` holds each
   * key once (`DistinctKeys`); on such entries `Lookup` finds the one entry
   * of a key (`LookupDistinct`), so that its first-entry rule is never
   * exercised.
   */
  datatype Value =
    | Null
    | Bool(b: bool)
    | Num(x: real)
    | Str(s: string)
    | List(items: seq<Value>)
    | Dict(entries: seq<(string, Value)>)

  /** The exceptions the modelled operations can raise. */
  datatype PyError = KeyError | IndexError | TypeError | AttributeError | ValueError

  /** A computation that either yields a value or raises, usable with `:-`. */
  datatype Result<+T> = Ok(value: T) | Err(error: PyError) {

    predicate IsFailure() {
      Err?
    }

    function PropagateFailure<U>(): Result<U>
      requires Err?
    {
      Err(error)
    }

    function Extract(): T
      requires Ok?
    {
      value
    }
  }

  /** The value stored under `key` in an association list (first entry wins). */
  function Lookup(entries: seq<(string, Value)>, key: string): (r: Option<Value>)
    ensures r.Some? <==> exists k | 0 <= k < |entries| :: entries[k].0 == key
    ensures r.Some? ==> exists k | 0 <= k < |entries| :: entries[k] == (key, r.value)
  {
    if |entries| == 0 then None
    else if entries[0].0 == key then Some(entries[0].1)
    else
      var r := Lookup(entries[1..], key);
      assert forall k | 1 <= k < |entries| :: entries[k] == entries[1..][k - 1];
      r
  }

  /** No key occurs twice among the entries, as in every Python `dict`. */
  predicate DistinctKeys(entries: seq<(string, Value)>)
  {
    forall i, j | 0 <= i < j < |entries| :: entries[i].0 != entries[j].0
  }

  /** In a `dict`, looking a key up gives the value of its (only) entry. */
  lemma {:induction false} LookupDistinct(entries: seq<(string, Value)>, k: nat)
    requires DistinctKeys(entries) && k < |entries|
    ensures Lookup(entries, entries[k].0) == Some(entries[k].1)
  {
    if k > 0 {
      assert entries[0].0 != entries[k].0;
      assert entries[k] == entries[1..][k - 1];
      LookupDistinct(entries[1..], k - 1);
    }
  }

  /** The field `key` of `v` when `v` is a `dict` holding it; `None` otherwise. */
  function Field(v: Value, key: string): Option<Value>
  {
    if v.Dict? then Lookup(v.entries, key) else None
  }

  /** Python's `key in v` for a string `key`. */
  function Contains(v: Value, key: string): (r: Result<bool>)
    ensures v.Dict? ==> r == Ok(Field(v, key).Some?)
    ensures v.List? ==> r == Ok(Str(key) in v.items)
    ensures v.Str? ==> r == Ok(Occurs(key, v.s))
    ensures r.Err? <==> v.Null? || v.Bool? || v.Num?
    ensures r.Err? ==> r.error == TypeError
  {
    match v
    case Dict(es) => Ok(Lookup(es, key).Some?)
    case List(xs) => Ok(Str(key) in xs)
    case Str(s) => Ok(Occurs(key, s))
    case _ => Err(TypeError)
  }

  /** Python's `v[key]` for a string `key`. */
  function GetItem(v: Value, key: string): (r: Result<Value>)
    ensures r.Ok? <==> Field(v, key).Some?
    ensures r.Ok? ==> r.value == Field(v, key).value
    ensures r.Err? ==> r.error == (if v.Dict? then KeyError else TypeError)
  {
    match v
    case Dict(es) =>
      (match Lookup(es, key)
       case Some(x) => Ok(x)
       case None => Err(KeyError))
    case _ => Err(TypeError)
  }

  /** Python's `v[0]`. */
  function GetFirst(v: Value): (r: Result<Value>)
    ensures r.Ok? <==> (v.List? && |v.items| > 0) || (v.Str? && |v.s| > 0)
    ensures r.Ok? && v.List? ==> r.value == v.items[0]
    ensures r.Ok? && v.Str? ==> r.value == Str(v.s[..1])
    ensures v.Dict? ==> r == Err(KeyError)
  {
    match v
    case List(xs) => if |xs| > 0 then Ok(xs[0]) else Err(IndexError)
    case Str(s) => if |s| > 0 then Ok(Str(s[..1])) else Err(IndexError)
    case Dict(_) => Err(KeyError)  // the integer 0 is never a JSON object key
    case _ => Err(TypeError)
  }

  /** Python's `v.get(key, default)`: only a `dict` has the method. */
  function GetOr(v: Value, key: string, default: Value): (r: Result<Value>)
    ensures r.Ok? <==> v.Dict?
    ensures r.Ok? && Field(v, key).Some? ==> r.value == Field(v, key).value
    ensures r.Ok? && Field(v, key).None? ==> r.value == default
    ensures r.Err? ==> r.error == AttributeError
  {
    if v.Dict? then
      Ok(match Lookup(v.entries, key) case Some(x) => x case None => default)
    else Err(AttributeError)
  }

  /** The elements a Python `for` loop visits: list items, one-character strings, dict keys. */
  function Iterate(v: Value): (r: Result<seq<Value>>)
    ensures v.List? ==> r == Ok(v.items)
    ensures r.Ok? <==> v.List? || v.Str? || v.Dict?
    ensures v.Str? ==> r.Ok? && |r.value| == |v.s|
    ensures v.Str? ==> forall k :: 0 <= k < |v.s| ==> r.value[k] == Str([v.s[k]])
    ensures v.Dict? ==> r.Ok? && |r.value| == |v.entries|
    ensures v.Dict? ==> forall k :: 0 <= k < |v.entries| ==> r.value[k] == Str(v.entries[k].0)
    ensures r.Ok? ==> forall k :: 0 <= k < |r.value| ==> v.List? || r.value[k].Str?
  {
    match v
    case List(xs) => Ok(xs)
    case Str(s) => Ok(seq(|s|, k requires 0 <= k < |s| => Str([s[k]])))
    case Dict(es) => Ok(seq(|es|, k requires 0 <= k < |es| => Str(es[k].0)))
    case _ => Err(TypeError)
  }

  /** Python's truth value: false exactly for `None`, `False`, zero and empty containers. */
  function Truthy(v: Value): (b: bool)
    ensures !b <==> v == Null || v == Bool(false) || v == Num(0.0) || v == Str([])
                    || v == List([]) || v == Dict([])
  {
    match v
    case Null => false
    case Bool(b) => b
    case Num(x) => x != 0.0
    case Str(s) => |s| > 0
    case List(xs) => |xs| > 0
    case Dict(es) => |es| > 0
  }

  /** Python's `v.startswith(prefix)`: only a `str` has the method. */
  function StartsWith(v: Value, prefix: string): (r: Result<bool>)
    ensures r.Ok? <==> v.Str?
    ensures r.Ok? ==> (r.value <==> prefix <= v.s)
    ensures r.Err? ==> r.error == AttributeError
  {
    match v
    case Str(s) => Ok(prefix <= s)
    case _ => Err(AttributeError)
  }
}

=== FILE: utils.dfy ===
/**
 * The permission records `create_account` builds for a new account
 * (pydexbot/utils.py:24-33): each of the owner and active permissions is
 * granted either to one public key or to another account's `active`
 * permission, and the active grantee defaults to the owner's.
 */
module Utils {
  import opened Wrappers
  import opened PyValues

  /** `{"key": key, "weight": weight}` */
  datatype KeyWeight = KeyWeight(key: string, weight: nat)

  /** `{"actor": actor, "permission": permission}`; the actor is passed through as given. */
  datatype PermissionLevel = PermissionLevel(actor: Value, permission: string)

  /** `{"permission": level, "weight": weight}` */
  datatype PermissionLevelWeight = PermissionLevelWeight(permission: PermissionLevel, weight: nat)

  /** `{"wait_sec": waitSec, "weight": weight}` */
  datatype WaitWeight = WaitWeight(waitSec: nat, weight: nat)

  /** `{"keys": …, "accounts": …, "waits": …, "threshold": …}` */
  datatype Authority = Authority(
    keys: seq<KeyWeight>,
    accounts: seq<PermissionLevelWeight>,
    waits: seq<WaitWeight>,
    threshold: nat)

  /** An account name has at most 12 characters; anything longer is taken for a public key. */
  const MaxNameLength: nat := 12

  /** The permission of the named account that a key-less grant delegates to. */
  const DelegatedPermission: string := "active"

  /** What `build_permission` takes for a public key: a string longer than 12 characters. */
  predicate IsKeyText(keyOrName: Value)
  {
    keyOrName.Str? && |keyOrName.s| > MaxNameLength
  }

  /**
   * `build_permission` (pydexbot/utils.py:26-31). The decision is by type
   * and length alone: the leading 'F' its comment mentions is not checked.
   */
  function BuildPermission(keyOrName: Value): (a: Authority)
    ensures a.threshold == 1 && a.waits == []
    ensures IsKeyText(keyOrName) <==> |a.keys| == 1
    ensures IsKeyText(keyOrName) <==> a.accounts == []
    ensures IsKeyText(keyOrName) ==> a.keys == [KeyWeight(keyOrName.s, 1)]
    ensures !IsKeyText(keyOrName) ==> a.keys == [] && |a.accounts| == 1
    ensures !IsKeyText(keyOrName) ==> a.accounts[0].permission.actor == keyOrName
    ensures !IsKeyText(keyOrName) ==> a.accounts[0].permission.permission == DelegatedPermission
    ensures !IsKeyText(keyOrName) ==> a.accounts[0].weight == 1
  {
    if keyOrName.Str? && |keyOrName.s| > MaxNameLength then
      Authority([KeyWeight(keyOrName.s, 1)], [], [], 1)
    else
      Authority([], [PermissionLevelWeight(PermissionLevel(keyOrName, DelegatedPermission), 1)], [], 1)
  }

  /**
   * Who an authority of exactly one entry is granted to: the key, as a
   * string, or the delegated actor. Anything else has no single grantee.
   */
  function Grantee(a: Authority): (g: Option<Value>)
    ensures g.Some? <==> |a.keys| + |a.accounts| == 1
  {
    if |a.keys| == 1 && a.accounts == [] then Some(Str(a.keys[0].key))
    else if a.keys == [] && |a.accounts| == 1 then Some(a.accounts[0].permission.actor)
    else None
  }

  function SumOf<T>(xs: seq<T>, weight: T -> nat): nat
  {
    if |xs| == 0 then 0 else weight(xs[0]) + SumOf(xs[1..], weight)
  }

  /** The weight all entries of an authority reach together. */
  function TotalWeight(a: Authority): nat
  {
    SumOf(a.keys, (k: KeyWeight) => k.weight)
      + SumOf(a.accounts, (p: PermissionLevelWeight) => p.weight)
      + SumOf(a.waits, (w: WaitWeight) => w.weight)
  }

  /** The chain accepts only an authority whose positive threshold its entries can reach. */
  predicate Satisfiable(a: Authority)
  {
    0 < a.threshold <= TotalWeight(a)
  }

  /** `build_permission` loses nothing: its argument is the grantee of the result. */
  lemma BuildPermissionGrantee(keyOrName: Value)
    ensures Grantee(BuildPermission(keyOrName)) == Some(keyOrName)
  {
  }

  /** Different arguments give different authorities. */
  lemma BuildPermissionInjective(x: Value, y: Value)
    ensures BuildPermission(x) == BuildPermission(y) <==> x == y
  {
    BuildPermissionGrantee(x);
    BuildPermissionGrantee(y);
  }

  /** Every authority `build_permission` makes can be satisfied by its one entry. */
  lemma BuildPermissionSatisfiable(keyOrName: Value)
    ensures Satisfiable(BuildPermission(keyOrName))
    ensures TotalWeight(BuildPermission(keyOrName)) == 1
  {
    var a := BuildPermission(keyOrName);
    if IsKeyText(keyOrName) {
      assert a.keys[1..] == [];
      assert SumOf(a.keys, (k: KeyWeight) => k.weight) == 1;
    } else {
      assert a.accounts[1..] == [];
      assert SumOf(a.accounts, (p: PermissionLevelWeight) => p.weight) == 1;
    }
  }

  /**
   * Any string of more than 12 characters is taken for a public key,
   * whether or not it starts with 'F'.
   */
  lemma LongTextIsKey(text: string)
    requires |text| > MaxNameLength
    ensures BuildPermission(Str(text)).keys == [KeyWeight(text, 1)]
    ensures BuildPermission(Str(text)).accounts == []
  {
  }

  /**
   * The owner and active authorities of `create_account`
   * (pydexbot/utils.py:24-25, 32-33); an active key of `None` stands for
   * the owner key.
   */
  function NewAccountAuthorities(ownerKey: Value, activeKey: Value): (r: (Authority, Authority))
    ensures Grantee(r.0) == Some(ownerKey)
    ensures activeKey != Null ==> Grantee(r.1) == Some(activeKey)
    ensures activeKey == Null ==> r.1 == r.0
  {
    BuildPermissionGrantee(ownerKey);
    BuildPermissionGrantee(activeKey);
    var active := if activeKey == Null then ownerKey else activeKey;
    (BuildPermission(ownerKey), BuildPermission(active))
  }

  /** Owner and active coincide exactly when the active key is omitted or equals the owner key. */
  lemma AuthoritiesCoincide(ownerKey: Value, activeKey: Value)
    ensures NewAccountAuthorities(ownerKey, activeKey).0 == NewAccountAuthorities(ownerKey, activeKey).1
            <==> activeKey == Null || activeKey == ownerKey
  {
    BuildPermissionInjective(ownerKey, activeKey);
  }
}

=== FILE: wrappers.dfy ===
/** Optional values, usable with `:-`. */
module Wrappers {

  datatype Option<+T> = None | Some(value: T) {

    predicate IsFailure() {
      None?
    }

    function PropagateFailure<U>(): Option<U>
      requires None?
    {
      None
    }

    function Extract(): T
      requires Some?
    {
      value
    }
  }
}
